=== FILE: README.md ===
# Weather app core, modelled in Dafny

This project models the state-keeping core of a small weather service.

- **Location store.** A table of named locations (coordinates, temperature, wind speed, rain, soft-delete flag) sits behind a Redis read-through cache. Lookups by id read `location_{id}`. Lookups by name read a `location_name:{name}` index. An after-update hook writes `location:{id}`.
- **Favorites list.** An ordered list of locations with unique ids and a 1-based current position. It supports add, remove by id or position, clear, and getters.
- **Session bridge.** Login loads a user's stored favorites from a per-user session document. Logout writes them back and clears the list.
- **User store.** Usernames map to an id, a salt, a salted password hash and an optional list of favorite location names.

Every operation is a pure function from a state to a `Result` of a new state, or of a value and a new state. External services are plain values:

- the table is a sequence of rows in insertion order plus an id counter;
- Redis is one keyspace `map<string, RedisValue>`;
- the session collection is a map from user id to document;
- the user table is a map from username to record;
- the hash function and the random salt are parameters.

Modules: `Wrappers`, `Text` (decimal rendering and parsing of integers, ASCII lower-casing), `Cache`, `Locations`, `LocationProperties`, `Favorites`, `FavoritesProperties`, `Sessions`, `SessionProperties`, `Users`, `UserProperties`.

Where the code and its own documentation disagree, the model follows the code:

- The hook's docstring (weather_app/models/location_model.py:210-214) says an update or delete refreshes or removes the location's cache entry. The hook writes `location:{id}`, while the id lookup reads `location_{id}`, so the entry that reads consult is never refreshed or removed. See Findings.
- The favorites class calls `validate_song_id`, `validate_track_number` and `check_if_empty` without defining them. They are given the behaviour the favorites tests expect: a non-negative integer id (text is coerced), a position in 1..length, and a non-empty list. An id absent from the list is reported as an invalid id.

## Model

| member | source | states |
|---|---|---|
| Cache.HGetAll | weather_app/models/location_model.py:107 | an absent key reads as an empty hash; a string key is a WRONGTYPE error |
| Cache.HSet | weather_app/models/location_model.py:124 | the mapping is merged into the hash, its values winning; fields it does not name keep their old values, and no other field appears; every other key is unchanged; a string key is a WRONGTYPE error |
| Cache.Get | weather_app/models/location_model.py:145 | a string key gives its text; an absent key gives nothing; a hash key is a WRONGTYPE error |
| Cache.Set | weather_app/models/location_model.py:160 | the key holds the text afterwards; every other key is unchanged |
| Cache.Del | weather_app/models/location_model.py:218 | the key is absent afterwards; every other key is unchanged |
| Text.ParseIntToString | weather_app/models/location_model.py:149-160 | `int(str(id))` gives back the id, so an id written to the name index is read back unchanged |
| Text.IntToStringInjective | weather_app/models/location_model.py:106 | different ids render to different digit strings, so different ids have different `location_{id}` keys |
| Locations.IsNegative | weather_app/models/location_model.py:30-32 | a value the wind-speed guard refuses renders with a leading minus; zero and negative zero pass the guard |
| Locations.CachedDeleted | weather_app/models/location_model.py:112 | a hash without `deleted` reads as live; the text the cache writes for a flag reads back as that flag, and lower-case "true" reads as deleted |
| Locations.Encode | weather_app/models/location_model.py:123-124 | the cached hash holds exactly the eight columns; the `id` field parses back to the id; `deleted` is "True" or "False" |
| Locations.FirstIndex | weather_app/models/location_model.py:78 | `.first()` finds the earliest matching row; it finds none exactly when no row matches |
| Locations.CreateLocation | weather_app/models/location_model.py:30-62 | a negative wind speed fails before the store is touched, and zero is accepted; a name already in the table fails with the duplicate error, deleted rows included; success appends one row with the given fields, a fresh id and `deleted` false, and leaves the cache alone; it succeeds exactly when the wind speed is not negative and no row has the name or the next id |
| Locations.RefreshCache | weather_app/models/location_model.py:216-223 | for a deleted target the key is removed; otherwise the target's string encoding is merged into the hash; nothing outside that one key changes |
| Locations.UpdateCacheForLocation | weather_app/models/location_model.py:192-223 | the hook as written touches only `location:{id}`; for a deleted target that key is gone afterwards; for a live one it fails exactly on a string under that key, and otherwise leaves a hash there holding the target's encoding |
| Locations.SoftDelete | weather_app/models/location_model.py:78-87 | an absent id gives not-found; a deleted row gives already-deleted; it succeeds exactly when the row exists and is live, and then only that row's `deleted` flag turns true and the hook's key is dropped |
| Locations.DeleteLocation | weather_app/models/location_model.py:68-87 | as written, succeeds exactly on a live row, and afterwards `location:{id}` is gone while every other cache key, `location_{id}` included, is as it was |
| Locations.FirstUnknown | weather_app/models/location_model.py:182-187 | reports a keyword exactly when some keyword is not a column, and the one reported is the first such keyword in argument order |
| Locations.ApplyAll | weather_app/models/location_model.py:182-184 | after the `setattr` loop every column holds the last value given for it, or its old value if none was given |
| Locations.UpdateWith | weather_app/models/location_model.py:175-188 | an absent or deleted row gives not-found; otherwise the first keyword that is not a column gives the invalid-attribute error; a value of the wrong kind, or a result clashing with another row's id or name, gives a failed commit; no keywords change nothing; otherwise it fails only on a string under the hook's key, and then the row is replaced by the updated one and only the hook's key changes in the cache |
| Locations.UpdateLocation | weather_app/models/location_model.py:164-188 | as written, a success was on a live row, keeps the table's size and counter and every other row, and touches no cache key but `location:{id}` of the updated row |
| Locations.GetLocationById | weather_app/models/location_model.py:105-125 | the table is never changed, and at most the `location_{id}` key is written; on a hit the lookup fails exactly when the cached `deleted`, lower-cased and defaulting to "false", is "true"; a hit returns the cached strings without writing anything; on a miss it succeeds exactly when the row exists and is live, and the row's encoding is then cached; a string under `location_{id}` is a WRONGTYPE error; a cached `deleted` hit, and a miss on an absent or deleted row, fail with not-found, whose message names the location if a non-empty name was given, else the id |
| Locations.GetLocationByName | weather_app/models/location_model.py:141-161 | the table is never changed; on an index miss an absent or deleted row gives not-found under the name; a cached id that does not parse is an error; one that parses hands over to the id lookup with the name as subject; on a miss with a live row the index is set to the row's id before handing over |
| LocationProperties.CreatePreservesValid | weather_app/models/location_model.py:21-22 | create keeps ids and names unique |
| LocationProperties.SoftDeletePreservesValid | weather_app/models/location_model.py:78-87 | delete keeps ids and names unique |
| LocationProperties.UpdatePreservesValid | weather_app/models/location_model.py:175-188 | update keeps ids and names unique, because a clashing update is refused at commit |
| LocationProperties.CreateThenGetById | weather_app/models/location_model.py:117-125 | on a cold cache, a created location is found by id with the given fields and `deleted` false |
| LocationProperties.DeleteTwiceFails | weather_app/models/location_model.py:82-86 | a second delete of the same id always fails with already-deleted |
| LocationProperties.LowerOfBoolText | weather_app/models/location_model.py:110-112 | the stored text of a flag, lower-cased, equals "true" exactly when the flag is true |
| LocationProperties.GetByIdLeavesLiveEntry | weather_app/models/location_model.py:117-124 | after a successful id lookup, `location_{id}` holds a non-empty hash whose `deleted` is not "true" |
| LocationProperties.GetByIdRepeatHits | weather_app/models/location_model.py:106-116 | repeating a successful id lookup is a cache hit that changes nothing |
| LocationProperties.HitIgnoresTable | weather_app/models/location_model.py:107-116 | on a hit, any table gives the same answer |
| LocationProperties.GetByIdSparesOtherIds | weather_app/models/location_model.py:106-124 | an id lookup changes nothing the lookup of another id would see |
| LocationProperties.GetByNameMissIndexes | weather_app/models/location_model.py:152-161 | an index miss that succeeds found a live row of that name, and the index now holds that row's id |
| LocationProperties.GetByNameRepeatHits | weather_app/models/location_model.py:145-161 | repeating a successful name lookup is answered from the cache and changes nothing |
| LocationProperties.UpdateSetsExactlyNamedFields | weather_app/models/location_model.py:182-188 | a successful update rewrites only the named columns of the one row found, with the last value for each winning; other rows and the counter are unchanged; with no keywords nothing changes |
| LocationProperties.MutationsSpareReadKeys | weather_app/models/location_model.py:216-223 | no update or delete, as written, changes any `location_{id}` or `location_name:{name}` entry |
| LocationProperties.StaleReadAfterDelete | weather_app/models/location_model.py:216-218 | after a successful read then a delete, the id lookup still returns the pre-delete cached view |
| LocationProperties.StaleReadAfterUpdate | weather_app/models/location_model.py:216-223 | after a successful read then an update, the id lookup returns the pre-update cached view |
| LocationProperties.CorrectedDeleteHidesRow | weather_app/models/location_model.py:216-218 | with the hook writing `location_{id}`, a deleted location is not found by id |
| LocationProperties.CorrectedUpdateIsVisible | weather_app/models/location_model.py:216-223 | with the hook writing `location_{id}`, the next id lookup shows every updated column, or fails if the update set `deleted` |
| Favorites.Ids | weather_app/models/favorites_model.py:56 | one id per entry, in list order |
| Favorites.Init | weather_app/models/favorites_model.py:28-33 | a new list is empty and its current position is 1 |
| Favorites.CheckIfEmpty | tests/test_favorites_model.py:179-182 | fails with the empty-list error exactly on an empty list |
| Favorites.ValidateId | tests/test_favorites_model.py:164-168 | accepts exactly the arguments that coerce to a non-negative integer, and, when membership is checked, one some entry carries; anything else gives the invalid-id error |
| Favorites.ValidateIndex | tests/test_favorites_model.py:171-176 | accepts exactly 1..length; anything else gives the invalid-index error |
| Favorites.Add | weather_app/models/favorites_model.py:51-60 | a non-entry is a type error; a negative id is invalid; an id already present is a duplicate; otherwise the entry is appended and the current position is unchanged |
| Favorites.Without | weather_app/models/favorites_model.py:75 | the comprehension keeps exactly the entries whose id differs |
| Favorites.RemoveById | weather_app/models/favorites_model.py:73-75 | an empty list fails; on a non-empty list an id that is not a non-negative integer, or is absent, gives the invalid-id error; success requires a valid id that is present, and keeps exactly the other entries |
| Favorites.RemoveAt | weather_app/models/favorites_model.py:89-93 | an empty list fails; a position outside 1..length fails; otherwise entry n-1 goes and the rest keep their order |
| Favorites.Clear | weather_app/models/favorites_model.py:99-102 | never fails; the list is empty afterwards; the current position is kept |
| Favorites.GetAll | weather_app/models/favorites_model.py:112-114 | fails exactly on an empty list; otherwise returns the list as it is |
| Favorites.GetById | weather_app/models/favorites_model.py:126-129 | an empty list fails; on a non-empty list an invalid or absent id gives the invalid-id error; succeeds exactly for a valid id that is present, returning the first entry carrying it |
| Favorites.GetAt | weather_app/models/favorites_model.py:141-145 | succeeds exactly for 1..length, returning entry n-1 |
| Favorites.GetCurrent | weather_app/models/favorites_model.py:151-152 | fails on an empty list or an out-of-range current position; otherwise returns entry current-1 |
| Favorites.Length | weather_app/models/favorites_model.py:154-158 | the length is the number of entries, zero exactly when the list is empty |
| FavoritesProperties.OperationsPreserveNoDupIds | weather_app/models/favorites_model.py:55-102 | add, both removes and clear keep the ids distinct |
| FavoritesProperties.WithoutAt | weather_app/models/favorites_model.py:75 | with distinct ids, filtering out an entry's id deletes exactly that entry, keeping the order |
| FavoritesProperties.RemoveByIdIsRemoveAt | weather_app/models/favorites_model.py:73-93 | with distinct ids, removing the id at position n is removing position n, leaving one entry fewer |
| FavoritesProperties.AddThenRemoveById | weather_app/models/favorites_model.py:60-75 | removing the id just added gives back the list as it was |
| FavoritesProperties.AddThenGet | weather_app/models/favorites_model.py:60-145 | an added entry is last by position and is found by its id |
| FavoritesProperties.AddThenGetAll | weather_app/models/favorites_model.py:60-158 | after an add, the listing is the old one with the entry at the end, and the length grows by one |
| FavoritesProperties.RemovalsShorten | weather_app/models/favorites_model.py:73-158 | with distinct ids, each successful removal, by id or position, shortens the list by one |
| FavoritesProperties.CurrentIsFirstFromInit | weather_app/models/favorites_model.py:32-152 | on a model that started fresh, the current entry exists exactly when the list is non-empty and is then the first entry |
| FavoritesProperties.RunFromInit | weather_app/models/favorites_model.py:32-102 | whatever calls follow construction, the current position stays 1 and the ids stay distinct |
| Sessions.StoredFavorites | weather_app/models/mongo_session_model.py:34 | a document without favorites reads as an empty list |
| Sessions.AsStored | weather_app/models/mongo_session_model.py:34-36 | login appends one entry per stored dictionary, in stored order |
| Sessions.Login | weather_app/models/mongo_session_model.py:29-41 | afterwards a document exists; with a document, the favorites are replaced by the stored entries and the store is unchanged; without one, an empty document is inserted and the favorites are untouched |
| Sessions.ToDicts | weather_app/models/mongo_session_model.py:64-65 | serialisation succeeds exactly when every entry has `to_dict`, giving one dictionary per entry in order |
| Sessions.Logout | weather_app/models/mongo_session_model.py:64-79 | an entry without `to_dict` raises before the store is touched; a missing document gives user-not-found and changes nothing; otherwise only that user's document gets the serialised favorites, no document is created, and the favorites are cleared |
| Sessions.LogoutCorrected | weather_app/models/mongo_session_model.py:64-79 | fails exactly when no document exists; otherwise writes every entry back (stored dictionaries as they are) and clears the favorites |
| SessionProperties.LoginThenLogoutFindsDocument | weather_app/models/mongo_session_model.py:38-76 | after any login, logout cannot fail with user-not-found |
| SessionProperties.LogoutThenLogin | weather_app/models/mongo_session_model.py:29-72 | with a document and only live entries F, logout then login loads `map(to_dict, F)` in order |
| SessionProperties.LoginThenLogoutRaises | weather_app/models/mongo_session_model.py:34-65 | as written, logout right after a login that loaded anything raises instead of saving |
| SessionProperties.CorrectedSessionRoundTrip | weather_app/models/mongo_session_model.py:29-79 | with the corrected logout, login, logout, login loads the same favorites as the first login |
| Users.CreateUser | weather_app/models/user_model.py:50-59 | a taken username fails with the duplicate error; otherwise exactly one user is added, with a fresh id, the given salt, `hash(password + salt)` and no favorites |
| Users.CheckPassword | weather_app/models/user_model.py:80-85 | an unknown user gives user-not-found; otherwise the answer is whether `hash(password + stored salt)` equals the stored hash |
| Users.DeleteUser | weather_app/models/user_model.py:98-103 | an unknown user gives user-not-found; otherwise exactly that user is removed and the others are unchanged |
| Users.GetId | weather_app/models/user_model.py:120-124 | an unknown user gives user-not-found; otherwise returns the stored id |
| Users.UpdatePassword | weather_app/models/user_model.py:138-146 | an unknown user gives user-not-found; otherwise only that user's salt and hash change |
| Users.AddFavorite | weather_app/models/user_model.py:161-171 | an unknown user gives user-not-found; a null list is treated as empty; a name already present leaves the list as it is; otherwise the name is appended; nothing else changes |
| Users.RemoveFirst | weather_app/models/user_model.py:199 | `list.remove` drops exactly one occurrence |
| Users.RemoveFavorite | weather_app/models/user_model.py:186-200 | an unknown user gives user-not-found; a null list, an empty list or an absent name gives favorite-not-found; otherwise one occurrence is removed and nothing else changes |
| UserProperties.CreateThenCheck | weather_app/models/user_model.py:34-85 | after creating a user with a password, checking that password succeeds, whatever the salt |
| UserProperties.CreateThenGetId | weather_app/models/user_model.py:50-124 | a new user's id is the counter's value, which no other user of a valid store holds; other users keep their ids |
| UserProperties.UpdateThenCheck | weather_app/models/user_model.py:138-146 | after a password update, the new password checks true, and every other user answers as before |
| UserProperties.OperationsPreserveValid | weather_app/models/user_model.py:17-18 | every operation keeps user ids distinct and below the counter |
| UserProperties.RemoveFirstIsFirst | weather_app/models/user_model.py:199 | the occurrence removed is the first one |
| UserProperties.FavoritesStayDistinct | weather_app/models/user_model.py:169-199 | a favorite list changed only by add and remove never holds a name twice |
| UserProperties.AddThenRemoveFavorite | weather_app/models/user_model.py:166-199 | adding a new name and removing it again gives back the old list, with a null list coming back empty |
| UserProperties.AddFavoriteIdempotent | weather_app/models/user_model.py:169-171 | adding the same name twice is adding it once |

## Left out

- Logging, the unused `TTL` setting, and the favorites file's imports of modules that do not exist. The favorites file also uses an undefined `Song` type; the model takes entries to be locations.
- Floating point. A float is opaque: its `repr` text serves as `str(v)`, and its sign is read from that text for the wind-speed check. Integers passed for float columns keep their integer rendering.
- `int()` accepts more spellings (surrounding blanks, `_` separators, non-ASCII digits) than `Text.ParseInt`. It is used for a cached id and for a text id argument.
- `str.lower()` is modelled on ASCII letters only.
- `update_location` accepts any attribute `hasattr` finds, including methods and SQLAlchemy internals. The model takes the eight columns as the attributes. A value of the wrong kind is reported as a failed commit.
- Locations.UpdateWith: the ORM's session state after a failed update is not modelled, since there is no rollback. The hook fires only when at least one keyword was given, which stands in for SQLAlchemy skipping a clean object.
- Database failures other than a unique-constraint clash, and Redis failures other than WRONGTYPE, are not modelled. The id sequence is a counter that only moves on a successful insert.
- Users.AddFavorite: in-place appends to a non-null ARRAY column are not tracked by SQLAlchemy, so a real commit may not persist them. The model states the in-memory list the code builds.
- Users.RemoveFavorite: like the append, the in-place `list.remove` on the ARRAY column is not tracked by SQLAlchemy, so a real commit may not persist it. The model states the in-memory list the code builds.
- Favorites.RemoveAt: line 92 of weather_app/models/favorites_model.py logs `self.playlist[playlist_index].title`. A location has no `title`, so with location entries that line raises `AttributeError` before the delete. The class is written against an undefined `Song` type; the model follows the removal the favorites tests expect (tests/test_favorites_model.py:96-100), so the entry is removed.
- Users.CreateUser: the `String(80)` length limit on usernames is not enforced by the model.
- Wrong passwords being rejected is not claimed, since that needs the hash to be collision-free.
- Sessions.Logout: the container is abstract. Its get-all does not fail on an empty list, although `FavoritesModel.get_all_songs` would. The bridge calls `clear_favorites`, `add_location_to_favorites` and `get_all_favorites`; the favorites class names these `clear_playlist`, `add_song_to_playlist` and `get_all_songs`.
- The session collection is a map, so at most one document per user id is modelled. `find_one` over several documents is out of scope.
- Favorites.ValidateIndex: a position given as text is not coerced; positions are integers.
- The favorites class has no method that stores weather snapshots or sets the current position, so the current position stays 1.
- The HTTP layer, the process-wide sharing of the favorites instance, and concurrency.
- Locations.GetLocationById: on a hit the returned dictionary also carries `deleted: False`. The model returns the other cached fields, because on success that value is fixed.

## Findings

| source | as written | input that shows it | evidently intended | confidence | as-written member | corrected member |
|---|---|---|---|---|---|---|
| weather_app/models/location_model.py:216 | the after-update hook refreshes or drops `location:{id}`, while the id lookup reads `location_{id}` (line 106) | read location 1 by id, delete it, read it by id again: the second read answers from the stale cache entry instead of not-found | the hook writes the key the id lookup reads | high; not executed | LocationProperties.StaleReadAfterDelete | LocationProperties.CorrectedDeleteHidesRow |
| weather_app/models/mongo_session_model.py:65 | logout calls `to_dict()` on every favorite, but login (line 36) appends the stored plain dictionaries, which have no `to_dict` | a user whose document holds one favorite logs in, then logs out: logout raises before saving | entries loaded at login are written back as they are | medium (depends on the container keeping the dictionaries); not executed | SessionProperties.LoginThenLogoutRaises | SessionProperties.CorrectedSessionRoundTrip |

=== FILE: cache.dfy ===
/** The Redis client as the location store uses it: one keyspace whose values
    are hashes (field map) or plain strings, with the five commands the code
    issues. A command applied to a key of the other kind fails the way Redis
    answers WRONGTYPE. */
module Cache {
  import opened Wrappers

  datatype RedisValue = Hash(fields: map<string, string>) | Plain(s: string)

  type Redis = map<string, RedisValue>

  /** HGETALL: the fields of a hash; an absent key reads as the empty map. */
  function HGetAll(r: Redis, key: string): (res: Result<map<string, string>, string>)
    ensures res.Failure? <==> key in r && r[key].Plain?
    ensures res.Success? && key in r ==> res.value == r[key].fields
    ensures key !in r ==> res == Success(map[])
  {
    if key !in r then Success(map[])
    else match r[key]
      case Hash(fields) => Success(fields)
      case Plain(_) => Failure(key)
  }

  /** HSET key mapping: merges `mapping` into the hash, its fields winning. */
  function HSet(r: Redis, key: string, mapping: map<string, string>): (res: Result<Redis, string>)
    ensures res.Failure? <==> key in r && r[key].Plain?
    ensures res.Success? ==>
      && res.value.Keys == r.Keys + {key}
      && res.value[key].Hash?
      && (forall f :: f in mapping ==> f in res.value[key].fields && res.value[key].fields[f] == mapping[f])
      && (forall k :: k in r && k != key ==> res.value[k] == r[k])
    ensures res.Success? && key in r ==>
      forall f :: f in r[key].fields && f !in mapping ==>
        f in res.value[key].fields && res.value[key].fields[f] == r[key].fields[f]
    ensures res.Success? ==>
      forall f :: f in res.value[key].fields ==> f in mapping || (key in r && f in r[key].fields)
  {
    if key !in r then Success(r[key := Hash(mapping)])
    else match r[key]
      case Hash(fields) => Success(r[key := Hash(fields + mapping)])
      case Plain(_) => Failure(key)
  }

  /** GET: the string under a key, None when absent. */
  function Get(r: Redis, key: string): (res: Result<Option<string>, string>)
    ensures res.Failure? <==> key in r && r[key].Hash?
    ensures res.Success? ==> (res.value.Some? <==> key in r)
    ensures res.Success? && key in r ==> res.value.value == r[key].s
  {
    if key !in r then Success(None)
    else match r[key]
      case Plain(s) => Success(Some(s))
      case Hash(_) => Failure(key)
  }

  /** SET: overwrites whatever the key held. */
  function Set(r: Redis, key: string, value: string): (r': Redis)
    ensures key in r' && r'[key] == Plain(value)
    ensures forall k :: k in r && k != key ==> k in r' && r'[k] == r[k]
    ensures r'.Keys == r.Keys + {key}
  {
    r[key := Plain(value)]
  }

  /** DEL. */
  function Del(r: Redis, key: string): (r': Redis)
    ensures key !in r'
    ensures forall k :: k in r && k != key ==> k in r' && r'[k] == r[k]
    ensures r'.Keys == r.Keys - {key}
  {
    r - {key}
  }
}

=== FILE: favorites.dfy ===
/** The favorites list kept by the running service: an ordered sequence of
    locations, each with an integer id, plus a 1-based "current" position.
    The list operations are those of `FavoritesModel`; the three validators
    the class calls but does not define (`validate_song_id`,
    `validate_track_number`, `check_if_empty`) are given the behaviour the
    favorites tests expect of them. */
module Favorites {
  import opened Wrappers
  import opened Text
  import opened Locations

  /** `entries` is `playlist`, `current` is `current_track_number`. */
  datatype Favorites = Favorites(entries: seq<Location>, current: int)

  /** What `add_song_to_playlist` may be handed: an entry, or any other object. */
  datatype AddArg = IsEntry(entry: Location) | NotEntry

  /** An id argument as a caller may pass it: an integer or some text. */
  datatype IdArg = IntId(i: int) | TextId(text: string)

  datatype FavoritesError =
    | NotAnEntry                 // TypeError: not a valid entry
    | InvalidId(arg: IdArg)      // "Invalid location id: {id}" (also for an absent id)
    | DuplicateId(id: int)       // "... with ID {id} already exists ..."
    | InvalidIndex(n: int)       // "Invalid index: {n}"
    | EmptyList                  // "Favorites is empty"

  /** A fresh model: nothing stored, current position 1. */
  function Init(): (f: Favorites)
    ensures Length(f) == 0
    ensures f.current == 1
  {
    Favorites([], 1)
  }

  /** The ids in the list, in order. */
  function Ids(entries: seq<Location>): (ids: seq<int>)
    ensures |ids| == |entries|
    ensures forall i :: 0 <= i < |entries| ==> ids[i] == entries[i].id
  {
    if |entries| == 0 then [] else [entries[0].id] + Ids(entries[1..])
  }

  /** No two entries share an id. */
  predicate NoDupIds(entries: seq<Location>) {
    forall i, j :: 0 <= i < j < |entries| ==> entries[i].id != entries[j].id
  }

  predicate HasId(entries: seq<Location>, id: int) {
    exists i :: 0 <= i < |entries| && entries[i].id == id
  }

  // ------------------------------------------------------------ validators

  /** `check_if_empty`: fails exactly on an empty list. */
  function CheckIfEmpty(f: Favorites): (r: Result<(), FavoritesError>)
    ensures r.Failure? <==> |f.entries| == 0
    ensures r.Failure? ==> r.error == EmptyList
  {
    if |f.entries| == 0 then Failure(EmptyList) else Success(())
  }

  /** `int(arg)`: text is coerced when it spells an integer. */
  function IdValue(arg: IdArg): (v: Option<int>)
    ensures arg.IntId? ==> v == Some(arg.i)
  {
    match arg
    case IntId(i) => Some(i)
    case TextId(t) => ParseInt(t)
  }

  /** The id an argument stands for, when it is a valid one. */
  predicate IsValidId(arg: IdArg) {
    IdValue(arg).Some? && IdValue(arg).value >= 0
  }

  /** `validate_song_id`: an argument that coerces to a non-negative integer;
      with `checkPresent`, one that some entry carries. */
  function ValidateId(f: Favorites, arg: IdArg, checkPresent: bool): (r: Result<int, FavoritesError>)
    ensures r.Success? <==>
      IsValidId(arg) && (checkPresent ==> HasId(f.entries, IdValue(arg).value))
    ensures r.Success? ==> Some(r.value) == IdValue(arg)
    ensures r.Failure? ==> r.error == InvalidId(arg)
  {
    match IdValue(arg)
    case None => Failure(InvalidId(arg))
    case Some(i) =>
      if i < 0 then Failure(InvalidId(arg))
      else if checkPresent && FirstIndex(f.entries, (l: Location) => l.id == i).None? then
        Failure(InvalidId(arg))
      else Success(i)
  }

  /** `validate_track_number`: a position in 1..length. */
  function ValidateIndex(f: Favorites, n: int): (r: Result<int, FavoritesError>)
    ensures r.Success? <==> 1 <= n <= |f.entries|
    ensures r.Success? ==> r.value == n
    ensures r.Failure? ==> r.error == InvalidIndex(n)
  {
    if n < 1 || n > |f.entries| then Failure(InvalidIndex(n)) else Success(n)
  }

  // ------------------------------------------------------------ operations

  /** `add_song_to_playlist`: type check, id check (presence not required),
      duplicate check, then append. */
  function Add(f: Favorites, arg: AddArg): (r: Result<Favorites, FavoritesError>)
    ensures arg.NotEntry? ==> r == Failure(NotAnEntry)
    ensures arg.IsEntry? && arg.entry.id < 0 ==> r == Failure(InvalidId(IntId(arg.entry.id)))
    ensures arg.IsEntry? && arg.entry.id >= 0 && HasId(f.entries, arg.entry.id) ==>
      r == Failure(DuplicateId(arg.entry.id))
    ensures r.Success? <==>
      arg.IsEntry? && arg.entry.id >= 0 && !HasId(f.entries, arg.entry.id)
    ensures r.Success? ==>
      && r.value.entries == f.entries + [arg.entry]
      && r.value.current == f.current
  {
    match arg
    case NotEntry => Failure(NotAnEntry)
    case IsEntry(e) =>
      match ValidateId(f, IntId(e.id), false)
      case Failure(err) => Failure(err)
      case Success(id) =>
        if id in Ids(f.entries) then Failure(DuplicateId(e.id))
        else Success(f.(entries := f.entries + [e]))
  }

  /** The list comprehension `[x for x in entries if x.id != id]`. */
  function Without(entries: seq<Location>, id: int): (r: seq<Location>)
    ensures |r| <= |entries|
    ensures forall x :: x in r <==> x in entries && x.id != id
  {
    if |entries| == 0 then []
    else (if entries[0].id == id then [] else [entries[0]]) + Without(entries[1..], id)
  }

  /** `remove_song_by_song_id`: non-empty, id present, then filter it out. */
  function RemoveById(f: Favorites, arg: IdArg): (r: Result<Favorites, FavoritesError>)
    ensures |f.entries| == 0 ==> r == Failure(EmptyList)
    ensures r.Success? <==>
      |f.entries| > 0 && IsValidId(arg) && HasId(f.entries, IdValue(arg).value)
    ensures |f.entries| > 0 && ValidateId(f, arg, true).Failure? ==> r == Failure(InvalidId(arg))
    ensures r.Success? ==>
      && r.value.current == f.current
      && (forall x :: x in r.value.entries <==> x in f.entries && x.id != IdValue(arg).value)
  {
    match CheckIfEmpty(f)
    case Failure(err) => Failure(err)
    case Success(_) =>
      match ValidateId(f, arg, true)
      case Failure(err) => Failure(err)
      case Success(id) => Success(f.(entries := Without(f.entries, id)))
  }

  /** `remove_song_by_track_number`: non-empty, 1 <= n <= length, then
      delete element n-1. */
  function RemoveAt(f: Favorites, n: int): (r: Result<Favorites, FavoritesError>)
    ensures |f.entries| == 0 ==> r == Failure(EmptyList)
    ensures |f.entries| > 0 && !(1 <= n <= |f.entries|) ==> r == Failure(InvalidIndex(n))
    ensures r.Success? <==> 1 <= n <= |f.entries|
    ensures r.Success? ==>
      && |r.value.entries| == |f.entries| - 1
      && (forall i :: 0 <= i < n - 1 ==> r.value.entries[i] == f.entries[i])
      && (forall i :: n - 1 <= i < |r.value.entries| ==> r.value.entries[i] == f.entries[i + 1])
      && r.value.current == f.current
  {
    match CheckIfEmpty(f)
    case Failure(err) => Failure(err)
    case Success(_) =>
      match ValidateIndex(f, n)
      case Failure(err) => Failure(err)
      case Success(k) => Success(f.(entries := f.entries[..k - 1] + f.entries[k..]))
  }

  /** `clear_playlist`: never fails; the current position is kept. */
  function Clear(f: Favorites): (r: Favorites)
    ensures Length(r) == 0
    ensures r.current == f.current
  {
    f.(entries := [])
  }

  /** `get_all_songs`. */
  function GetAll(f: Favorites): (r: Result<seq<Location>, FavoritesError>)
    ensures r.Failure? <==> |f.entries| == 0
    ensures r.Failure? ==> r.error == EmptyList
    ensures r.Success? ==> r.value == f.entries
  {
    match CheckIfEmpty(f)
    case Failure(err) => Failure(err)
    case Success(_) => Success(f.entries)
  }

  /** `get_song_by_song_id`: the first entry carrying the id. */
  function GetById(f: Favorites, arg: IdArg): (r: Result<Location, FavoritesError>)
    ensures |f.entries| == 0 ==> r == Failure(EmptyList)
    ensures r.Success? <==>
      |f.entries| > 0 && IsValidId(arg) && HasId(f.entries, IdValue(arg).value)
    ensures |f.entries| > 0 && ValidateId(f, arg, true).Failure? ==> r == Failure(InvalidId(arg))
    ensures r.Success? ==>
      && r.value.id == IdValue(arg).value
      && exists k :: 0 <= k < |f.entries| && f.entries[k] == r.value &&
           forall i :: 0 <= i < k ==> f.entries[i].id != r.value.id
  {
    match CheckIfEmpty(f)
    case Failure(err) => Failure(err)
    case Success(_) =>
      match ValidateId(f, arg, true)
      case Failure(err) => Failure(err)
      case Success(id) =>
        match FirstIndex(f.entries, (l: Location) => l.id == id)
        case Some(k) => Success(f.entries[k])
        case None => Failure(InvalidId(arg))
  }

  /** `get_song_by_track_number`: element n-1 for 1 <= n <= length. */
  function GetAt(f: Favorites, n: int): (r: Result<Location, FavoritesError>)
    ensures |f.entries| == 0 ==> r == Failure(EmptyList)
    ensures |f.entries| > 0 && !(1 <= n <= |f.entries|) ==> r == Failure(InvalidIndex(n))
    ensures r.Success? <==> 1 <= n <= |f.entries|
    ensures r.Success? ==> r.value == f.entries[n - 1]
  {
    match CheckIfEmpty(f)
    case Failure(err) => Failure(err)
    case Success(_) =>
      match ValidateIndex(f, n)
      case Failure(err) => Failure(err)
      case Success(k) => Success(f.entries[k - 1])
  }

  /** `get_current_song`: the entry at the current position. */
  function GetCurrent(f: Favorites): (r: Result<Location, FavoritesError>)
    ensures |f.entries| == 0 ==> r == Failure(EmptyList)
    ensures r.Success? <==> 1 <= f.current <= |f.entries|
    ensures r.Success? ==> r.value == f.entries[f.current - 1]
  {
    match CheckIfEmpty(f)
    case Failure(err) => Failure(err)
    case Success(_) => GetAt(f, f.current)
  }

  /** `get_playlist_length`. */
  function Length(f: Favorites): (n: nat)
    ensures n == |f.entries|
    ensures n == 0 <==> f.entries == []
  {
    |f.entries|
  }
}

=== FILE: favorites_properties.dfy ===
/** Properties of the favorites list that relate several operations: ids
    stay unique, removing by id is removing at that entry's position, an add
    is undone by removing the same id, and a fresh list keeps its current
    position 1 whatever is done to it. */
module FavoritesProperties {
  import opened Wrappers
  import opened Locations
  import opened Favorites

  // ------------------------------------------------------------- helpers

  /** Filtering out an id no entry carries changes nothing. */
  lemma {:induction false} WithoutAbsent(entries: seq<Location>, id: int)
    requires forall i :: 0 <= i < |entries| ==> entries[i].id != id
    ensures Without(entries, id) == entries
  {
    if |entries| > 0 {
      WithoutAbsent(entries[1..], id);
      assert entries == [entries[0]] + entries[1..];
    }
  }

  /** With unique ids, filtering out the id of entry k deletes exactly entry k. */
  lemma {:induction false} WithoutAt(entries: seq<Location>, k: nat)
    requires NoDupIds(entries)
    requires k < |entries|
    ensures Without(entries, entries[k].id) == entries[..k] + entries[k + 1..]
  {
    var id := entries[k].id;
    if k == 0 {
      WithoutAbsent(entries[1..], id);
    } else {
      var tail := entries[1..];
      assert tail[k - 1] == entries[k];
      assert NoDupIds(tail) by {
        forall i, j | 0 <= i < j < |tail| ensures tail[i].id != tail[j].id {
          assert tail[i] == entries[i + 1] && tail[j] == entries[j + 1];
        }
      }
      WithoutAt(tail, k - 1);
      assert entries[..k] == [entries[0]] + tail[..k - 1];
      assert entries[k + 1..] == tail[k..];
    }
  }

  /** Deleting one element keeps ids unique. */
  lemma {:induction false} RemoveAtKeepsNoDup(entries: seq<Location>, k: nat)
    requires NoDupIds(entries)
    requires k < |entries|
    ensures NoDupIds(entries[..k] + entries[k + 1..])
  {
    var rest := entries[..k] + entries[k + 1..];
    forall i, j | 0 <= i < j < |rest| ensures rest[i].id != rest[j].id {
      var i' := if i < k then i else i + 1;
      var j' := if j < k then j else j + 1;
      assert rest[i] == entries[i'] && rest[j] == entries[j'];
    }
  }

  /** The index of an entry carrying a present id. */
  lemma {:induction false} IndexOfId(entries: seq<Location>, id: int) returns (k: nat)
    requires HasId(entries, id)
    ensures k < |entries| && entries[k].id == id
  {
    var i :| 0 <= i < |entries| && entries[i].id == id;
    k := i;
  }

  // ---------------------------------------------------------- properties

  /** Every operation that changes the list keeps ids unique. */
  lemma {:induction false} OperationsPreserveNoDupIds(f: Favorites, arg: AddArg, id: IdArg, n: int)
    requires NoDupIds(f.entries)
    ensures Add(f, arg).Success? ==> NoDupIds(Add(f, arg).value.entries)
    ensures RemoveById(f, id).Success? ==> NoDupIds(RemoveById(f, id).value.entries)
    ensures RemoveAt(f, n).Success? ==> NoDupIds(RemoveAt(f, n).value.entries)
    ensures NoDupIds(Clear(f).entries)
  {
    if Add(f, arg).Success? {
      var e := arg.entry;
      var entries' := f.entries + [e];
      forall i, j | 0 <= i < j < |entries'| ensures entries'[i].id != entries'[j].id {
        if j == |f.entries| {
          assert entries'[i] == f.entries[i];
        } else {
          assert entries'[i] == f.entries[i] && entries'[j] == f.entries[j];
        }
      }
    }
    if RemoveById(f, id).Success? {
      var k := IndexOfId(f.entries, IdValue(id).value);
      WithoutAt(f.entries, k);
      RemoveAtKeepsNoDup(f.entries, k);
    }
    if RemoveAt(f, n).Success? {
      RemoveAtKeepsNoDup(f.entries, n - 1);
    }
  }

  /** With unique ids, removing the id of the entry at position n (1-based) is
      removing position n: one entry fewer, the others in their old order. */
  lemma {:induction false} RemoveByIdIsRemoveAt(f: Favorites, n: int)
    requires NoDupIds(f.entries)
    requires 1 <= n <= |f.entries|
    requires f.entries[n - 1].id >= 0
    ensures RemoveById(f, IntId(f.entries[n - 1].id)) == RemoveAt(f, n)
    ensures |RemoveById(f, IntId(f.entries[n - 1].id)).value.entries| == |f.entries| - 1
  {
    assert HasId(f.entries, f.entries[n - 1].id);
    WithoutAt(f.entries, n - 1);
  }

  /** An add is undone by removing the id it added. */
  lemma {:induction false} AddThenRemoveById(f: Favorites, e: Location)
    requires Add(f, IsEntry(e)).Success?
    ensures RemoveById(Add(f, IsEntry(e)).value, IntId(e.id)) == Success(f)
  {
    var entries' := f.entries + [e];
    assert entries'[|f.entries|].id == e.id;
    assert HasId(entries', e.id);
    WithoutAbsent(f.entries, e.id);
    assert Without(entries', e.id) == f.entries by {
      WithoutSplit(f.entries, [e], e.id);
    }
  }

  /** Filtering distributes over concatenation. */
  lemma {:induction false} WithoutSplit(xs: seq<Location>, ys: seq<Location>, id: int)
    ensures Without(xs + ys, id) == Without(xs, id) + Without(ys, id)
  {
    if |xs| > 0 {
      assert (xs + ys)[1..] == xs[1..] + ys;
      WithoutSplit(xs[1..], ys, id);
    } else {
      assert xs + ys == ys;
    }
  }

  /** After an add, the new entry is last and can be found by its id. */
  lemma {:induction false} AddThenGet(f: Favorites, e: Location)
    requires Add(f, IsEntry(e)).Success?
    ensures GetAt(Add(f, IsEntry(e)).value, |f.entries| + 1) == Success(e)
    ensures GetById(Add(f, IsEntry(e)).value, IntId(e.id)) == Success(e)
  {
    var entries' := f.entries + [e];
    assert entries'[|f.entries|] == e;
    assert HasId(entries', e.id);
    assert forall i :: 0 <= i < |f.entries| ==> entries'[i] == f.entries[i];
  }

  /** An add appends: the full listing gains the entry at its end and the
      length grows by one. */
  lemma {:induction false} AddThenGetAll(f: Favorites, e: Location)
    requires Add(f, IsEntry(e)).Success?
    ensures GetAll(Add(f, IsEntry(e)).value) == Success(f.entries + [e])
    ensures Length(Add(f, IsEntry(e)).value) == Length(f) + 1
  {
  }

  /** Each successful removal shortens the list by exactly one entry (by id,
      when ids are unique). */
  lemma {:induction false} RemovalsShorten(f: Favorites, n: int, id: IdArg)
    requires NoDupIds(f.entries)
    ensures RemoveAt(f, n).Success? ==> Length(RemoveAt(f, n).value) == Length(f) - 1
    ensures RemoveById(f, id).Success? ==> Length(RemoveById(f, id).value) == Length(f) - 1
  {
    if RemoveById(f, id).Success? {
      var k := IndexOfId(f.entries, IdValue(id).value);
      WithoutAt(f.entries, k);
    }
  }

  // ------------------------------------------------------ runs from Init

  /** One call on the favorites model. */
  datatype Op =
    | AddOp(arg: AddArg)
    | RemoveByIdOp(id: IdArg)
    | RemoveAtOp(n: int)
    | ClearOp

  /** The state after a call; a call that raises leaves the state as it was. */
  function Step(f: Favorites, op: Op): (f': Favorites)
    ensures f'.current == f.current
  {
    var r := match op
      case AddOp(arg) => Add(f, arg)
      case RemoveByIdOp(id) => RemoveById(f, id)
      case RemoveAtOp(n) => RemoveAt(f, n)
      case ClearOp => Success(Clear(f));
    if r.Success? then r.value else f
  }

  function Run(f: Favorites, ops: seq<Op>): Favorites
    decreases |ops|
  {
    if |ops| == 0 then f else Run(Step(f, ops[0]), ops[1..])
  }

  /** Whatever calls are made on a fresh model, its current position stays 1
      and no two entries share an id. */
  lemma {:induction false} RunFromInit(ops: seq<Op>)
    ensures Run(Init(), ops).current == 1
    ensures NoDupIds(Run(Init(), ops).entries)
  {
    RunKeeps(Init(), ops);
  }

  /** On a model that started fresh, the current entry is always the first
      one, and there is one exactly when the list is non-empty. */
  lemma {:induction false} CurrentIsFirstFromInit(ops: seq<Op>)
    ensures var f := Run(Init(), ops);
      && (GetCurrent(f).Success? <==> Length(f) > 0)
      && (Length(f) > 0 ==> GetCurrent(f) == Success(f.entries[0]))
  {
    RunFromInit(ops);
  }

  lemma {:induction false} RunKeeps(f: Favorites, ops: seq<Op>)
    requires NoDupIds(f.entries)
    ensures Run(f, ops).current == f.current
    ensures NoDupIds(Run(f, ops).entries)
    decreases |ops|
  {
    if |ops| > 0 {
      var op := ops[0];
      match op {
        case AddOp(arg) => OperationsPreserveNoDupIds(f, arg, TextId(""), 0);
        case RemoveByIdOp(id) => OperationsPreserveNoDupIds(f, NotEntry, id, 0);
        case RemoveAtOp(n) => OperationsPreserveNoDupIds(f, NotEntry, TextId(""), n);
        case ClearOp => OperationsPreserveNoDupIds(f, NotEntry, TextId(""), 0);
      }
      RunKeeps(Step(f, op), ops[1..]);
    }
  }
}

=== FILE: location_properties.dfy ===
/** Properties of the location store that relate several operations: the
    uniqueness invariant, create-then-read, double delete, the read-through
    round trip, and the consequences of the hook writing `location:{id}`
    while reads consult `location_{id}`. */
module LocationProperties {
  import opened Wrappers
  import opened Text
  import opened Cache
  import opened Locations

  // ------------------------------------------------------------- helpers

  /** Replacing the first match by another match keeps it the first match. */
  lemma {:induction false} FirstIndexAfterReplace(rows: seq<Location>, p: Location -> bool, k: nat, y: Location)
    requires FirstIndex(rows, p) == Some(k)
    requires p(y)
    ensures FirstIndex(rows[k := y], p) == Some(k)
  {
    var rows' := rows[k := y];
    assert p(rows'[k]);
    assert forall j :: 0 <= j < k ==> rows'[j] == rows[j];
  }

  /** A row appended after rows that do not match is the first match. */
  lemma {:induction false} FirstIndexAfterAppend(rows: seq<Location>, p: Location -> bool, y: Location)
    requires forall j :: 0 <= j < |rows| ==> !p(rows[j])
    requires p(y)
    ensures FirstIndex(rows + [y], p) == Some(|rows|)
  {
    var rows' := rows + [y];
    assert p(rows'[|rows|]);
    assert forall j :: 0 <= j < |rows| ==> rows'[j] == rows[j];
  }

  lemma {:induction false} RowByIdAfterReplace(db: Db, id: int, y: Location)
    requires RowById(db, id).Some?
    requires y.id == id
    ensures RowById(db.(rows := db.rows[RowById(db, id).value := y]), id) == RowById(db, id)
  {
    FirstIndexAfterReplace(db.rows, (l: Location) => l.id == id, RowById(db, id).value, y);
  }

  /** The three families of Redis keys never meet. */
  lemma {:induction false} KeyFamiliesDisjoint(i: int, j: int, n: string)
    ensures HookKey(i) != ReadKey(j)
    ensures HookKey(i) != NameKey(n)
    ensures ReadKey(j) != NameKey(n)
  {
    PrefixesDiffer("location:", "location_", IntToString(i), IntToString(j), 8);
    PrefixesDiffer("location:", "location_", IntToString(i), "name:" + n, 8);
    assert NameKey(n) == "location_" + ("name:" + n);
    var t := IntToString(j);
    assert ReadKey(j)[9] == t[0];
    assert NameKey(n)[9] == 'n';
  }

  lemma {:induction false} ReadKeyInjective(i: int, j: int)
    ensures ReadKey(i) == ReadKey(j) ==> i == j
  {
    if ReadKey(i) == ReadKey(j) {
      assert IntToString(i) == ReadKey(i)[9..];
      assert IntToString(j) == ReadKey(j)[9..];
      IntToStringInjective(i, j);
    }
  }

  lemma {:induction false} LowerOfBoolText(b: bool)
    ensures (ToLower(BoolText(b)) == "true") == b
  {
    if b {
      assert ToLower("True") == "true";
    } else {
      assert ToLower("False")[0] == 'f';
    }
  }

  // -------------------------------------------------- table invariant

  lemma {:induction false} CreatePreservesValid(s: State, name: string, latitude: Number, longitude: Number,
                                                temperature: Number, windSpeed: Number, rain: Number)
    requires Valid(s.db)
    requires CreateLocation(s, name, latitude, longitude, temperature, windSpeed, rain).Success?
    ensures Valid(CreateLocation(s, name, latitude, longitude, temperature, windSpeed, rain).value.db)
  {
    var rows' := CreateLocation(s, name, latitude, longitude, temperature, windSpeed, rain).value.db.rows;
    forall i, j | 0 <= i < |rows'| && 0 <= j < |rows'| && i != j
      ensures rows'[i].id != rows'[j].id && rows'[i].name != rows'[j].name
    {
      if i < |s.db.rows| && j < |s.db.rows| {
        assert rows'[i] == s.db.rows[i] && rows'[j] == s.db.rows[j];
      }
    }
  }

  /** Writing a row that does not clash keeps both constraints. */
  lemma {:induction false} ReplacePreservesValid(db: Db, k: nat, y: Location)
    requires Valid(db)
    requires k < |db.rows|
    requires !Clashes(db.rows, k, y)
    ensures Valid(db.(rows := db.rows[k := y]))
  {
    var rows' := db.rows[k := y];
    forall i, j | 0 <= i < |rows'| && 0 <= j < |rows'| && i != j
      ensures rows'[i].id != rows'[j].id && rows'[i].name != rows'[j].name
    {
      if i == k {
        assert !(db.rows[j].id == y.id || db.rows[j].name == y.name);
      } else if j == k {
        assert !(db.rows[i].id == y.id || db.rows[i].name == y.name);
      }
    }
  }

  lemma {:induction false} SoftDeletePreservesValid(s: State, id: int, keyOf: int -> string)
    requires Valid(s.db)
    requires SoftDelete(s, id, keyOf).Success?
    ensures Valid(SoftDelete(s, id, keyOf).value.db)
  {
    var k := RowById(s.db, id).value;
    var y := s.db.rows[k].(deleted := true);
    assert !Clashes(s.db.rows, k, y);
    ReplacePreservesValid(s.db, k, y);
  }

  lemma {:induction false} UpdatePreservesValid(s: State, id: int, updates: seq<(string, Value)>, keyOf: int -> string)
    requires Valid(s.db)
    requires UpdateWith(s, id, updates, keyOf).Success?
    ensures Valid(UpdateWith(s, id, updates, keyOf).value.db)
  {
    if |updates| > 0 {
      var k := RowById(s.db, id).value;
      ReplacePreservesValid(s.db, k, ApplyAll(s.db.rows[k], updates));
    }
  }

  // ------------------------------------------------------ create / delete

  /** A fresh location is found by the id lookup (on a cold cache) with
      exactly the fields it was created with and `deleted` false. */
  lemma {:induction false} CreateThenGetById(s: State, name: string, latitude: Number, longitude: Number,
                          temperature: Number, windSpeed: Number, rain: Number)
    requires CreateLocation(s, name, latitude, longitude, temperature, windSpeed, rain).Success?
    requires ReadKey(s.db.nextId) !in s.cache
    ensures
      var s' := CreateLocation(s, name, latitude, longitude, temperature, windSpeed, rain).value;
      var r := GetLocationById(s', s.db.nextId, None);
      && r.Success?
      && r.value.0 == FromStore(Location(s.db.nextId, name, latitude, longitude, temperature, windSpeed, rain, false))
  {
    var s' := CreateLocation(s, name, latitude, longitude, temperature, windSpeed, rain).value;
    var loc := Location(s.db.nextId, name, latitude, longitude, temperature, windSpeed, rain, false);
    FirstIndexAfterAppend(s.db.rows, (l: Location) => l.id == s.db.nextId, loc);
    assert RowById(s'.db, s.db.nextId) == Some(|s.db.rows|);
    assert s'.db.rows[|s.db.rows|] == loc;
  }

  /** A soft delete succeeds at most once. */
  lemma {:induction false} DeleteTwiceFails(s: State, id: int, keyOf: int -> string)
    requires SoftDelete(s, id, keyOf).Success?
    ensures SoftDelete(SoftDelete(s, id, keyOf).value, id, keyOf) == Failure(AlreadyDeleted(id))
  {
    var k := RowById(s.db, id).value;
    RowByIdAfterReplace(s.db, id, s.db.rows[k].(deleted := true));
  }

  // ------------------------------------------------------- read-through

  /** After a successful id lookup the cache holds a live hash under
      `location_{id}` (a miss has just written it). */
  lemma {:induction false} GetByIdLeavesLiveEntry(s: State, id: int, name: Option<string>)
    requires GetLocationById(s, id, name).Success?
    ensures var s1 := GetLocationById(s, id, name).value.1;
      Hit(s1.cache, id) && !CachedDeleted(s1.cache[ReadKey(id)].fields)
  {
    var r := GetLocationById(s, id, name);
    if r.value.0.FromStore? {
      var fields := r.value.1.cache[ReadKey(id)].fields;
      assert "deleted" in fields && fields["deleted"] == BoolText(false);
      LowerOfBoolText(false);
    }
  }

  /** An immediate repeat of a successful id lookup is a cache hit that
      changes nothing. */
  lemma {:induction false} GetByIdRepeatHits(s: State, id: int, name: Option<string>, name': Option<string>)
    requires GetLocationById(s, id, name).Success?
    ensures var s1 := GetLocationById(s, id, name).value.1;
      GetLocationById(s1, id, name') == Success((FromCache(s1.cache[ReadKey(id)].fields - {"deleted"}), s1))
  {
    GetByIdLeavesLiveEntry(s, id, name);
  }

  /** A hit never consults the table: any table gives the same answer. */
  lemma {:induction false} HitIgnoresTable(s: State, db': Db, id: int, name: Option<string>)
    requires Hit(s.cache, id)
    ensures var r := GetLocationById(s, id, name);
            var r' := GetLocationById(State(db', s.cache), id, name);
      && (r.Success? <==> r'.Success?)
      && (r.Success? ==> r.value.0 == r'.value.0)
      && (r.Failure? ==> r.error == r'.error)
  {
  }

  /** A lookup of one id writes only that id's entry, so the answer for any
      other id is the same before and after it. */
  lemma {:induction false} GetByIdSparesOtherIds(s: State, id: int, name: Option<string>, j: int, name': Option<string>)
    requires GetLocationById(s, id, name).Success?
    requires j != id
    ensures var s1 := GetLocationById(s, id, name).value.1;
            var r := GetLocationById(s, j, name');
            var r' := GetLocationById(s1, j, name');
      && (r.Success? <==> r'.Success?)
      && (r.Success? ==> r.value.0 == r'.value.0)
      && (r.Failure? ==> r.error == r'.error)
  {
    var s1 := GetLocationById(s, id, name).value.1;
    ReadKeyInjective(id, j);
    assert ReadKey(j) in s.cache <==> ReadKey(j) in s1.cache;
    assert ReadKey(j) in s.cache ==> s1.cache[ReadKey(j)] == s.cache[ReadKey(j)];
  }

  /** A successful name lookup leaves the index and the id entry in place,
      so repeating it is answered from the cache and changes nothing. */
  lemma {:induction false} GetByNameRepeatHits(s: State, name: string)
    requires GetLocationByName(s, name).Success?
    ensures var s1 := GetLocationByName(s, name).value.1;
      && GetLocationByName(s1, name).Success?
      && GetLocationByName(s1, name).value.1 == s1
      && GetLocationByName(s1, name).value.0.FromCache?
  {
    var key := NameKey(name);
    var r := GetLocationByName(s, name);
    var s1 := r.value.1;
    var cachedId := Get(s.cache, key).value;
    if cachedId.Some? && cachedId.value != "" {
      var id := ParseInt(cachedId.value).value;
      GetByIdLeavesLiveEntry(s, id, Some(name));
      KeyFamiliesDisjoint(0, id, name);
      assert s1.cache[key] == s.cache[key];
      GetByIdRepeatHits(s, id, Some(name), Some(name));
    } else {
      var loc := s.db.rows[RowByName(s.db, name).value];
      var s0 := State(s.db, Set(s.cache, key, IntToString(loc.id)));
      GetByIdLeavesLiveEntry(s0, loc.id, Some(name));
      KeyFamiliesDisjoint(0, loc.id, name);
      assert s1.cache[key] == Plain(IntToString(loc.id));
      ParseIntToString(loc.id);
      GetByIdRepeatHits(s0, loc.id, Some(name), Some(name));
    }
  }

  /** A name lookup that misses the index finds a live row of that name and
      leaves the index pointing at its id. */
  lemma {:induction false} GetByNameMissIndexes(s: State, name: string)
    requires Get(s.cache, NameKey(name)) == Success(None)
    requires GetLocationByName(s, name).Success?
    ensures RowByName(s.db, name).Some?
    ensures var row := s.db.rows[RowByName(s.db, name).value];
      && !row.deleted
      && row.name == name
      && NameKey(name) in GetLocationByName(s, name).value.1.cache
      && GetLocationByName(s, name).value.1.cache[NameKey(name)] == Plain(IntToString(row.id))
  {
    var row := s.db.rows[RowByName(s.db, name).value];
    KeyFamiliesDisjoint(0, row.id, name);
  }

  // ------------------------------------------------------------- update

  /** A successful update writes exactly the named columns of the one row
      it found (the last value given for a column wins) and leaves every
      other row alone; with no keywords nothing changes at all. */
  lemma {:induction false} UpdateSetsExactlyNamedFields(s: State, id: int, updates: seq<(string, Value)>, keyOf: int -> string)
    requires UpdateWith(s, id, updates, keyOf).Success?
    ensures var s' := UpdateWith(s, id, updates, keyOf).value;
            var k := RowById(s.db, id).value;
      && RowById(s.db, id).Some?
      && |s'.db.rows| == |s.db.rows|
      && s'.db.nextId == s.db.nextId
      && (forall j :: 0 <= j < |s.db.rows| && j != k ==> s'.db.rows[j] == s.db.rows[j])
      && (forall key :: key in Columns ==>
            ColumnValue(s'.db.rows[k], key) == match LastValue(updates, key)
              case Some(v) => v
              case None => ColumnValue(s.db.rows[k], key))
      && SameExcept(s.cache, s'.cache, keyOf(s'.db.rows[k].id))
      && (|updates| == 0 ==> s' == s)
  {
  }

  // ------------------------------------ what the hook key means for reads

  /** Neither update nor delete, as written, touches an id entry or a name
      index entry: the hook only ever writes `location:{id}`. */
  lemma {:induction false} MutationsSpareReadKeys(s: State, id: int, updates: seq<(string, Value)>, j: int, n: string)
    ensures DeleteLocation(s, id).Success? ==>
      && (ReadKey(j) in s.cache <==> ReadKey(j) in DeleteLocation(s, id).value.cache)
      && (ReadKey(j) in s.cache ==> DeleteLocation(s, id).value.cache[ReadKey(j)] == s.cache[ReadKey(j)])
      && (NameKey(n) in s.cache <==> NameKey(n) in DeleteLocation(s, id).value.cache)
      && (NameKey(n) in s.cache ==> DeleteLocation(s, id).value.cache[NameKey(n)] == s.cache[NameKey(n)])
    ensures UpdateLocation(s, id, updates).Success? ==>
      && (ReadKey(j) in s.cache <==> ReadKey(j) in UpdateLocation(s, id, updates).value.cache)
      && (ReadKey(j) in s.cache ==> UpdateLocation(s, id, updates).value.cache[ReadKey(j)] == s.cache[ReadKey(j)])
      && (NameKey(n) in s.cache <==> NameKey(n) in UpdateLocation(s, id, updates).value.cache)
      && (NameKey(n) in s.cache ==> UpdateLocation(s, id, updates).value.cache[NameKey(n)] == s.cache[NameKey(n)])
  {
    KeyFamiliesDisjoint(id, j, n);
    if UpdateLocation(s, id, updates).Success? {
      UpdateSetsExactlyNamedFields(s, id, updates, HookKey);
      var s' := UpdateLocation(s, id, updates).value;
      var k := RowById(s.db, id).value;
      KeyFamiliesDisjoint(s'.db.rows[k].id, j, n);
    }
  }

  /** As written, a location read once stays readable after it is deleted:
      the id lookup keeps answering from `location_{id}`. */
  lemma {:induction false} StaleReadAfterDelete(s: State, id: int)
    requires GetLocationById(s, id, None).Success?
    requires DeleteLocation(GetLocationById(s, id, None).value.1, id).Success?
    ensures var s1 := GetLocationById(s, id, None).value.1;
            var s2 := DeleteLocation(s1, id).value;
      && s2.db.rows[RowById(s1.db, id).value].deleted
      && GetLocationById(s2, id, None) == Success((FromCache(s1.cache[ReadKey(id)].fields - {"deleted"}), s2))
  {
    var s1 := GetLocationById(s, id, None).value.1;
    GetByIdLeavesLiveEntry(s, id, None);
    KeyFamiliesDisjoint(id, id, "");
  }

  /** As written, an update is invisible to the id lookup once the location
      has been read: the answer is the pre-update cached view. */
  lemma {:induction false} StaleReadAfterUpdate(s: State, id: int, updates: seq<(string, Value)>)
    requires GetLocationById(s, id, None).Success?
    requires UpdateLocation(GetLocationById(s, id, None).value.1, id, updates).Success?
    ensures var s1 := GetLocationById(s, id, None).value.1;
            var s2 := UpdateLocation(s1, id, updates).value;
      GetLocationById(s2, id, None) == Success((FromCache(s1.cache[ReadKey(id)].fields - {"deleted"}), s2))
  {
    var s1 := GetLocationById(s, id, None).value.1;
    GetByIdLeavesLiveEntry(s, id, None);
    MutationsSpareReadKeys(s1, id, updates, id, "");
  }

  /** With the hook writing `location_{id}`, a deleted location is not
      found by the id lookup any more. */
  lemma {:induction false} CorrectedDeleteHidesRow(s: State, id: int, name: Option<string>)
    requires SoftDelete(s, id, ReadKey).Success?
    ensures GetLocationById(SoftDelete(s, id, ReadKey).value, id, name) == Failure(NotFound(Subject(id, name)))
  {
    var k := RowById(s.db, id).value;
    RowByIdAfterReplace(s.db, id, s.db.rows[k].(deleted := true));
  }

  /** With the hook writing `location_{id}`, an update that keeps the id is
      what the next id lookup returns: every column of the updated row is
      read back as its string, or, if the update deleted the row, the lookup
      fails. */
  lemma {:induction false} CorrectedUpdateIsVisible(s: State, id: int, updates: seq<(string, Value)>, name: Option<string>)
    requires UpdateWith(s, id, updates, ReadKey).Success?
    requires |updates| > 0
    requires LastValue(updates, "id").None?
    ensures var s' := UpdateWith(s, id, updates, ReadKey).value;
            var row := s'.db.rows[RowById(s.db, id).value];
            var r := GetLocationById(s', id, name);
      && (row.deleted ==> r == Failure(NotFound(Subject(id, name))))
      && (!row.deleted ==>
            && r.Success? && r.value.0.FromCache?
            && forall f :: f in Columns && f != "deleted" ==>
                 f in r.value.0.fields && r.value.0.fields[f] == Encode(row)[f])
  {
    UpdateSetsExactlyNamedFields(s, id, updates, ReadKey);
    var s' := UpdateWith(s, id, updates, ReadKey).value;
    var k := RowById(s.db, id).value;
    var row := s'.db.rows[k];
    assert ColumnValue(row, "id") == ColumnValue(s.db.rows[k], "id");
    assert row.id == id;
    RowByIdAfterReplace(s.db, id, row);
    if !row.deleted {
      var fields := s'.cache[ReadKey(id)].fields;
      assert Holds(fields, Encode(row));
      assert fields["deleted"] == "False";
      LowerOfBoolText(false);
    }
  }
}

=== FILE: locations.dfy ===
/** The location record store (weather_app/models/location_model.py): a
    relational table of locations with a unique name and a soft-delete flag,
    fronted by a Redis read-through cache.

    Three families of Redis keys are in play:
      - `location_{id}`      hash, written and read by the id lookup;
      - `location_name:{n}`  string, the name-to-id index of the name lookup;
      - `location:{id}`      hash, written only by the after-update hook.
    The hook and the id lookup use different keys, so mutations never reach
    the entry that reads consult. The model keeps that as written; the hook is
    parameterised by its key function so that the intended variant (writing
    `location_{id}`) can be stated next to it. */
module Locations {
  import opened Wrappers
  import opened Text
  import opened Cache

  /** A Python number stored in a Float column. A float is identified by its
      `repr` text; an `int` (the tests pass `34`, `15`, `0`) keeps its integer
      value, so `str` renders it without a decimal point. */
  datatype Number = Int(i: int) | Float(repr: string)

  /** `n < 0`. A float is negative when its repr carries a minus sign, except
      negative zero; `nan` and `inf` reprs carry none. */
  predicate IsNegative(n: Number): (b: bool)
    ensures b ==> |NumberText(n)| > 0 && NumberText(n)[0] == '-'
    ensures n == Float("-0.0") || n == Int(0) || n == Float("0.0") ==> !b
  {
    match n
    case Int(i) => i < 0
    case Float(r) => |r| > 0 && r[0] == '-' && r != "-0.0"
  }

  /** `str(n)`. */
  function NumberText(n: Number): string {
    match n
    case Int(i) => IntToString(i)
    case Float(r) => r
  }

  /** A row of the `locations` table; `name` is the `location` column. */
  datatype Location = Location(
    id: int,
    name: string,
    latitude: Number,
    longitude: Number,
    temperature: Number,
    windSpeed: Number,
    rain: Number,
    deleted: bool)

  /** The table, rows in insertion order (so `query.first()` is the earliest
      match), and the id the engine hands to the next insert. */
  datatype Db = Db(rows: seq<Location>, nextId: int)

  datatype State = State(db: Db, cache: Redis)

  datatype LocationError =
    | NegativeWindSpeed            // "Wind speed must be a positive value."
    | DuplicateName(name: string)  // "Location with name '{name}' already exists"
    | NotFound(subject: string)    // "Location {subject} not found"
    | AlreadyDeleted(id: int)      // "Location with ID {id} has been deleted"
    | InvalidAttribute(key: string)
    | DatabaseError                // the commit is refused (constraint or column type)
    | CacheWrongType(key: string)  // Redis WRONGTYPE on that key
    | InvalidCachedId(text: string) // `int()` of a cached id raised

  /** A successful lookup: on a cache hit the cached strings (the returned
      dict also holds `deleted: False`, which is the only value a hit can
      return), on a miss the typed row. */
  datatype Found = FromCache(fields: map<string, string>) | FromStore(loc: Location)

  /** A value passed as a keyword argument to `update_location`. */
  datatype Value = Num(n: Number) | Str(s: string) | Flag(b: bool)

  // ---------------------------------------------------------------- keys

  function ReadKey(id: int): string {
    "location_" + IntToString(id)
  }

  function HookKey(id: int): string {
    "location:" + IntToString(id)
  }

  function NameKey(name: string): string {
    "location_name:" + name
  }

  // ------------------------------------------------------------- columns

  const Columns: set<string> := {"id", "location", "latitude", "longitude",
    "current_temperature", "current_wind_speed", "current_rain", "deleted"}

  function BoolText(b: bool): string {
    if b then "True" else "False"
  }

  /** `{k: str(v) for k, v in asdict(loc).items()}`: what both the id lookup
      and the hook write into a hash. */
  function Encode(loc: Location): (m: map<string, string>)
    ensures m.Keys == Columns
    ensures ParseInt(m["id"]) == Some(loc.id)
    ensures m["location"] == loc.name
    ensures m["deleted"] == BoolText(loc.deleted)
  {
    ParseIntToString(loc.id);
    map[
      "id" := IntToString(loc.id),
      "location" := loc.name,
      "latitude" := NumberText(loc.latitude),
      "longitude" := NumberText(loc.longitude),
      "current_temperature" := NumberText(loc.temperature),
      "current_wind_speed" := NumberText(loc.windSpeed),
      "current_rain" := NumberText(loc.rain),
      "deleted" := BoolText(loc.deleted)]
  }

  /** `fields.get('deleted', 'false').lower() == 'true'`. */
  predicate CachedDeleted(fields: map<string, string>): (b: bool)
    ensures "deleted" !in fields ==> !b
    ensures forall d :: "deleted" in fields && fields["deleted"] == BoolText(d) ==> (b <==> d)
    ensures "deleted" in fields && fields["deleted"] == "true" ==> b
  {
    ToLower(if "deleted" in fields then fields["deleted"] else "false") == "true"
  }

  /** The column a value of this kind can be assigned to; anything else is
      refused by the database at commit. */
  predicate Fits(key: string, v: Value) {
    match v
    case Num(n) =>
      key in {"latitude", "longitude", "current_temperature", "current_wind_speed", "current_rain"}
      || (key == "id" && n.Int?)
    case Str(_) => key == "location"
    case Flag(_) => key == "deleted"
  }

  /** `getattr(loc, key)` for a column name. */
  function ColumnValue(loc: Location, key: string): Value
    requires key in Columns
  {
    if key == "id" then Num(Int(loc.id))
    else if key == "location" then Str(loc.name)
    else if key == "latitude" then Num(loc.latitude)
    else if key == "longitude" then Num(loc.longitude)
    else if key == "current_temperature" then Num(loc.temperature)
    else if key == "current_wind_speed" then Num(loc.windSpeed)
    else if key == "current_rain" then Num(loc.rain)
    else Flag(loc.deleted)
  }

  /** `setattr(loc, key, v)`. */
  function SetColumn(loc: Location, key: string, v: Value): (loc': Location)
    requires Fits(key, v)
    ensures key in Columns && ColumnValue(loc', key) == v
    ensures forall k :: k in Columns && k != key ==> ColumnValue(loc', k) == ColumnValue(loc, k)
  {
    match v
    case Num(n) =>
      if key == "id" then loc.(id := n.i)
      else if key == "latitude" then loc.(latitude := n)
      else if key == "longitude" then loc.(longitude := n)
      else if key == "current_temperature" then loc.(temperature := n)
      else if key == "current_wind_speed" then loc.(windSpeed := n)
      else loc.(rain := n)
    case Str(s) => loc.(name := s)
    case Flag(b) => loc.(deleted := b)
  }

  // -------------------------------------------------------------- queries

  /** The earliest row satisfying `p`, as `query.filter_by(...).first()` finds it. */
  function FirstIndex(rows: seq<Location>, p: Location -> bool): (r: Option<nat>)
    ensures r.None? <==> forall j :: 0 <= j < |rows| ==> !p(rows[j])
    ensures r.Some? ==> r.value < |rows| && p(rows[r.value])
    ensures r.Some? ==> forall j :: 0 <= j < r.value ==> !p(rows[j])
  {
    if |rows| == 0 then None
    else if p(rows[0]) then Some(0)
    else
      match FirstIndex(rows[1..], p)
      case None => None
      case Some(k) => Some(k + 1)
  }

  function RowById(db: Db, id: int): Option<nat> {
    FirstIndex(db.rows, (l: Location) => l.id == id)
  }

  function RowByName(db: Db, name: string): Option<nat> {
    FirstIndex(db.rows, (l: Location) => l.name == name)
  }

  /** Writing `loc` at index `k` (or appending it, for `k == |rows|`) would
      break the primary key or the unique `location` column. */
  predicate Clashes(rows: seq<Location>, k: nat, loc: Location) {
    exists j :: 0 <= j < |rows| && j != k && (rows[j].id == loc.id || rows[j].name == loc.name)
  }

  /** The table keeps its two uniqueness constraints. */
  ghost predicate Valid(db: Db) {
    forall i, j :: 0 <= i < |db.rows| && 0 <= j < |db.rows| && i != j ==>
      db.rows[i].id != db.rows[j].id && db.rows[i].name != db.rows[j].name
  }

  /** Every field of `part` is in `fields` with the same value. */
  predicate Holds(fields: map<string, string>, part: map<string, string>) {
    forall f :: f in part ==> f in fields && fields[f] == part[f]
  }

  /** The cache keeps the same contents except possibly under `key`. */
  ghost predicate SameExcept(c: Redis, c': Redis, key: string) {
    forall k :: k != key ==> (k in c <==> k in c') && (k in c ==> c'[k] == c[k])
  }

  // ---------------------------------------------------------- operations

  /** `Locations.create_location`: the constructor's wind-speed guard, then
      an insert that the unique constraints may refuse. Every integrity error
      is reported as a duplicate name. */
  function CreateLocation(s: State, name: string, latitude: Number, longitude: Number,
                          temperature: Number, windSpeed: Number, rain: Number): (r: Result<State, LocationError>)
    ensures IsNegative(windSpeed) ==> r == Failure(NegativeWindSpeed)
    ensures !IsNegative(windSpeed) && (exists j :: 0 <= j < |s.db.rows| && s.db.rows[j].name == name) ==>
      r == Failure(DuplicateName(name))
    ensures r.Failure? ==> r.error in {NegativeWindSpeed, DuplicateName(name)}
    ensures r.Success? <==>
      && !IsNegative(windSpeed)
      && forall j :: 0 <= j < |s.db.rows| ==> s.db.rows[j].name != name && s.db.rows[j].id != s.db.nextId
    ensures r.Success? ==>
      && r.value.db.rows == s.db.rows + [Location(s.db.nextId, name, latitude, longitude, temperature, windSpeed, rain, false)]
      && (forall j :: 0 <= j < |s.db.rows| ==> s.db.rows[j].id != s.db.nextId && s.db.rows[j].name != name)
      && r.value.db.nextId == s.db.nextId + 1
      && r.value.cache == s.cache
  {
    if IsNegative(windSpeed) then Failure(NegativeWindSpeed)
    else
      var loc := Location(s.db.nextId, name, latitude, longitude, temperature, windSpeed, rain, false);
      if Clashes(s.db.rows, |s.db.rows|, loc) then Failure(DuplicateName(name))
      else Success(State(Db(s.db.rows + [loc], s.db.nextId + 1), s.cache))
  }

  /** `update_cache_for_location`, writing under `keyOf(target.id)`: a
      deleted target removes the key, any other is merged into it. */
  function RefreshCache(cache: Redis, target: Location, keyOf: int -> string): (r: Result<Redis, LocationError>)
    ensures r.Success? ==> SameExcept(cache, r.value, keyOf(target.id))
    ensures target.deleted ==> r == Success(Del(cache, keyOf(target.id)))
    ensures !target.deleted ==>
      (r.Failure? <==> keyOf(target.id) in cache && cache[keyOf(target.id)].Plain?)
    ensures !target.deleted && r.Success? ==>
      && keyOf(target.id) in r.value
      && r.value[keyOf(target.id)].Hash?
      && Holds(r.value[keyOf(target.id)].fields, Encode(target))
  {
    var key := keyOf(target.id);
    if target.deleted then Success(Del(cache, key))
    else
      match HSet(cache, key, Encode(target))
      case Failure(k) => Failure(CacheWrongType(k))
      case Success(c) => Success(c)
  }

  /** The hook as registered for `after_update`: it writes `location:{id}`. */
  function UpdateCacheForLocation(cache: Redis, target: Location): (r: Result<Redis, LocationError>)
    ensures r.Success? ==> SameExcept(cache, r.value, HookKey(target.id))
    ensures target.deleted ==> r.Success? && HookKey(target.id) !in r.value
    ensures !target.deleted ==>
      (r.Failure? <==> HookKey(target.id) in cache && cache[HookKey(target.id)].Plain?)
    ensures !target.deleted && r.Success? ==>
      && HookKey(target.id) in r.value
      && r.value[HookKey(target.id)].Hash?
      && Holds(r.value[HookKey(target.id)].fields, Encode(target))
  {
    RefreshCache(cache, target, HookKey)
  }

  /** `delete_location` with the after-update hook writing under `keyOf`. */
  function SoftDelete(s: State, id: int, keyOf: int -> string): (r: Result<State, LocationError>)
    ensures RowById(s.db, id).None? ==> r == Failure(NotFound(IntToString(id)))
    ensures RowById(s.db, id).Some? && s.db.rows[RowById(s.db, id).value].deleted ==>
      r == Failure(AlreadyDeleted(id))
    ensures r.Success? <==> RowById(s.db, id).Some? && !s.db.rows[RowById(s.db, id).value].deleted
    ensures r.Success? ==>
      && RowById(s.db, id).Some?
      && r.value.db == s.db.(rows := s.db.rows[RowById(s.db, id).value := s.db.rows[RowById(s.db, id).value].(deleted := true)])
      && SameExcept(s.cache, r.value.cache, keyOf(id))
      && keyOf(id) !in r.value.cache
  {
    match RowById(s.db, id)
    case None => Failure(NotFound(IntToString(id)))
    case Some(k) =>
      var loc := s.db.rows[k];
      if loc.deleted then Failure(AlreadyDeleted(id))
      else
        var target := loc.(deleted := true);
        match RefreshCache(s.cache, target, keyOf)
        case Failure(e) => Failure(e)
        case Success(cache') => Success(State(s.db.(rows := s.db.rows[k := target]), cache'))
  }

  /** `Locations.delete_location` as written: the hook removes `location:{id}`. */
  function DeleteLocation(s: State, id: int): (r: Result<State, LocationError>)
    ensures r.Success? <==> RowById(s.db, id).Some? && !s.db.rows[RowById(s.db, id).value].deleted
    ensures r.Success? ==> HookKey(id) !in r.value.cache && SameExcept(s.cache, r.value.cache, HookKey(id))
  {
    SoftDelete(s, id, HookKey)
  }

  /** The first keyword whose name is not a column, in argument order. */
  function FirstUnknown(updates: seq<(string, Value)>): (r: Option<string>)
    ensures r.None? <==> forall i :: 0 <= i < |updates| ==> updates[i].0 in Columns
    ensures r.Some? ==> r.value !in Columns
    ensures r.Some? ==>
      exists i :: (0 <= i < |updates| && updates[i].0 == r.value &&
                   forall j :: 0 <= j < i ==> updates[j].0 in Columns)
  {
    if |updates| == 0 then None
    else if updates[0].0 !in Columns then Some(updates[0].0)
    else
      var rest := FirstUnknown(updates[1..]);
      assert rest.Some? ==>
        exists i :: (0 <= i < |updates| && updates[i].0 == rest.value &&
                     forall j :: 0 <= j < i ==> updates[j].0 in Columns) by {
        if rest.Some? {
          var i :| 0 <= i < |updates[1..]| && updates[1..][i].0 == rest.value &&
                   forall j :: 0 <= j < i ==> updates[1..][j].0 in Columns;
          assert updates[i + 1].0 == rest.value;
          assert forall j :: 1 <= j < i + 1 ==> updates[j] == updates[1..][j - 1];
        }
      }
      rest
  }

  predicate AllFit(updates: seq<(string, Value)>) {
    forall i :: 0 <= i < |updates| ==> Fits(updates[i].0, updates[i].1)
  }

  /** The value last given for `key`, if any: sequential `setattr` calls
      leave the last one in place. */
  function LastValue(updates: seq<(string, Value)>, key: string): Option<Value> {
    if |updates| == 0 then None
    else if updates[|updates| - 1].0 == key then Some(updates[|updates| - 1].1)
    else LastValue(updates[..|updates| - 1], key)
  }

  /** The `setattr` loop of `update_location`, in argument order. */
  function ApplyAll(loc: Location, updates: seq<(string, Value)>): (loc': Location)
    requires AllFit(updates)
    ensures forall key :: key in Columns ==>
      ColumnValue(loc', key) == match LastValue(updates, key)
        case Some(v) => v
        case None => ColumnValue(loc, key)
  {
    if |updates| == 0 then loc
    else
      var last := updates[|updates| - 1];
      var prefix := updates[..|updates| - 1];
      assert AllFit(prefix) by {
        forall i | 0 <= i < |prefix| ensures Fits(prefix[i].0, prefix[i].1) {
          assert prefix[i] == updates[i];
        }
      }
      SetColumn(ApplyAll(loc, prefix), last.0, last.1)
  }

  /** `update_location` with the after-update hook writing under `keyOf`.
      The hook fires only when some attribute was assigned (a clean object
      is not flushed). */
  function UpdateWith(s: State, id: int, updates: seq<(string, Value)>, keyOf: int -> string): (r: Result<State, LocationError>)
    ensures RowById(s.db, id).None? ==> r == Failure(NotFound(IntToString(id)))
    ensures RowById(s.db, id).Some? && s.db.rows[RowById(s.db, id).value].deleted ==>
      r == Failure(NotFound(IntToString(id)))
    ensures (RowById(s.db, id).Some? && !s.db.rows[RowById(s.db, id).value].deleted && FirstUnknown(updates).Some?) ==>
      r == Failure(InvalidAttribute(FirstUnknown(updates).value))
    ensures r.Success? ==>
      && RowById(s.db, id).Some? && !s.db.rows[RowById(s.db, id).value].deleted
      && FirstUnknown(updates).None? && AllFit(updates)
    ensures (RowById(s.db, id).Some? && !s.db.rows[RowById(s.db, id).value].deleted &&
             FirstUnknown(updates).None? && !AllFit(updates)) ==>
      r == Failure(DatabaseError)
    ensures (RowById(s.db, id).Some? && !s.db.rows[RowById(s.db, id).value].deleted &&
             FirstUnknown(updates).None? && AllFit(updates)) ==>
      var k := RowById(s.db, id).value;
      var target := ApplyAll(s.db.rows[k], updates);
      && (Clashes(s.db.rows, k, target) ==> r == Failure(DatabaseError))
      && (!Clashes(s.db.rows, k, target) && |updates| == 0 ==> r == Success(s))
      && (!Clashes(s.db.rows, k, target) && |updates| > 0 ==>
            (r.Success? <==> target.deleted || !(keyOf(target.id) in s.cache && s.cache[keyOf(target.id)].Plain?)))
      && (r.Success? && |updates| > 0 ==>
            && r.value.db == s.db.(rows := s.db.rows[k := target])
            && SameExcept(s.cache, r.value.cache, keyOf(target.id)))
  {
    match RowById(s.db, id)
    case None => Failure(NotFound(IntToString(id)))
    case Some(k) =>
      var loc := s.db.rows[k];
      if loc.deleted then Failure(NotFound(IntToString(id)))
      else
        match FirstUnknown(updates)
        case Some(key) => Failure(InvalidAttribute(key))
        case None =>
          if !AllFit(updates) then Failure(DatabaseError)
          else
            var target := ApplyAll(loc, updates);
            if Clashes(s.db.rows, k, target) then Failure(DatabaseError)
            else if |updates| == 0 then Success(s)
            else
              match RefreshCache(s.cache, target, keyOf)
              case Failure(e) => Failure(e)
              case Success(cache') => Success(State(s.db.(rows := s.db.rows[k := target]), cache'))
  }

  /** `Locations.update_location` as written: the hook writes `location:{id}`. */
  function UpdateLocation(s: State, id: int, updates: seq<(string, Value)>): (r: Result<State, LocationError>)
    ensures r.Success? ==> RowById(s.db, id).Some? && !s.db.rows[RowById(s.db, id).value].deleted
    ensures r.Success? ==>
      var k := RowById(s.db, id).value;
      && |r.value.db.rows| == |s.db.rows|
      && r.value.db.nextId == s.db.nextId
      && (forall j :: 0 <= j < |s.db.rows| && j != k ==> r.value.db.rows[j] == s.db.rows[j])
      && SameExcept(s.cache, r.value.cache, HookKey(r.value.db.rows[k].id))
  {
    UpdateWith(s, id, updates, HookKey)
  }

  /** `location or location_id` in the not-found message: an empty name is falsy. */
  function Subject(id: int, name: Option<string>): string {
    if name.Some? && name.value != "" then name.value else IntToString(id)
  }

  /** `hgetall(location_{id})` answers with a non-empty hash. */
  predicate Hit(cache: Redis, id: int) {
    ReadKey(id) in cache && cache[ReadKey(id)].Hash? && cache[ReadKey(id)].fields != map[]
  }

  /** `Locations.get_location_by_id`: a non-empty hash under `location_{id}`
      answers without touching the table; otherwise the table is read and, for
      a live row, its encoding is merged into `location_{id}`. */
  function GetLocationById(s: State, id: int, name: Option<string>): (r: Result<(Found, State), LocationError>)
    ensures r.Success? ==> r.value.1.db == s.db
    ensures r.Success? ==> SameExcept(s.cache, r.value.1.cache, ReadKey(id))
    ensures r.Success? && r.value.0.FromCache? ==>
      && r.value.1 == s
      && ReadKey(id) in s.cache && s.cache[ReadKey(id)].Hash?
      && !CachedDeleted(s.cache[ReadKey(id)].fields)
      && r.value.0.fields == s.cache[ReadKey(id)].fields - {"deleted"}
    ensures r.Success? && r.value.0.FromStore? ==>
      && RowById(s.db, id).Some?
      && r.value.0.loc == s.db.rows[RowById(s.db, id).value]
      && !r.value.0.loc.deleted
      && ReadKey(id) in r.value.1.cache && r.value.1.cache[ReadKey(id)].Hash?
      && Holds(r.value.1.cache[ReadKey(id)].fields, Encode(r.value.0.loc))
    ensures r.Failure? ==> r.error in {NotFound(Subject(id, name)), CacheWrongType(ReadKey(id))}
    ensures ReadKey(id) in s.cache && s.cache[ReadKey(id)].Plain? ==> r == Failure(CacheWrongType(ReadKey(id)))
    ensures Hit(s.cache, id) && CachedDeleted(s.cache[ReadKey(id)].fields) ==> r == Failure(NotFound(Subject(id, name)))
    ensures !Hit(s.cache, id) && !(ReadKey(id) in s.cache && s.cache[ReadKey(id)].Plain?) && r.Failure? ==>
      r.error == NotFound(Subject(id, name))
    ensures Hit(s.cache, id) ==>
      && (r.Success? <==> !CachedDeleted(s.cache[ReadKey(id)].fields))
      && (r.Success? ==> r.value.0.FromCache?)
    ensures !Hit(s.cache, id) && !(ReadKey(id) in s.cache && s.cache[ReadKey(id)].Plain?) ==>
      && (r.Success? <==> RowById(s.db, id).Some? && !s.db.rows[RowById(s.db, id).value].deleted)
      && (r.Success? ==> r.value.0.FromStore?)
  {
    var key := ReadKey(id);
    match HGetAll(s.cache, key)
    case Failure(k) => Failure(CacheWrongType(k))
    case Success(cached) =>
      if cached != map[] then
        if CachedDeleted(cached) then Failure(NotFound(Subject(id, name)))
        else Success((FromCache(cached - {"deleted"}), s))
      else
        match RowById(s.db, id)
        case None => Failure(NotFound(Subject(id, name)))
        case Some(k) =>
          var loc := s.db.rows[k];
          if loc.deleted then Failure(NotFound(Subject(id, name)))
          else
            match HSet(s.cache, key, Encode(loc))
            case Failure(k) => Failure(CacheWrongType(k))
            case Success(c) => Success((FromStore(loc), State(s.db, c)))
  }

  /** `Locations.get_location_by_name`: a non-empty string under
      `location_name:{name}` is parsed as an id and handed to the id lookup;
      otherwise the table is searched by name and, for a live row, the index
      entry is written before delegating. */
  function GetLocationByName(s: State, name: string): (r: Result<(Found, State), LocationError>)
    ensures r.Success? ==> r.value.1.db == s.db
    ensures Get(s.cache, NameKey(name)).Failure? ==> r == Failure(CacheWrongType(NameKey(name)))
    ensures (Get(s.cache, NameKey(name)) == Success(None) || Get(s.cache, NameKey(name)) == Success(Some(""))) ==>
      (RowByName(s.db, name).None? || s.db.rows[RowByName(s.db, name).value].deleted ==>
         r == Failure(NotFound(name)))
    ensures forall t :: Get(s.cache, NameKey(name)) == Success(Some(t)) && t != "" && ParseInt(t).None? ==>
      r == Failure(InvalidCachedId(t))
    ensures forall t :: Get(s.cache, NameKey(name)) == Success(Some(t)) && t != "" && ParseInt(t).Some? ==>
      r == GetLocationById(s, ParseInt(t).value, Some(name))
    ensures (Get(s.cache, NameKey(name)) == Success(None) || Get(s.cache, NameKey(name)) == Success(Some(""))) ==>
      (RowByName(s.db, name).Some? && !s.db.rows[RowByName(s.db, name).value].deleted ==>
         var row := s.db.rows[RowByName(s.db, name).value];
         && Get(Set(s.cache, NameKey(name), IntToString(row.id)), NameKey(name)) == Success(Some(IntToString(row.id)))
         && r == GetLocationById(State(s.db, Set(s.cache, NameKey(name), IntToString(row.id))), row.id, Some(name)))
  {
    var key := NameKey(name);
    match Get(s.cache, key)
    case Failure(k) => Failure(CacheWrongType(k))
    case Success(cachedId) =>
      if cachedId.Some? && cachedId.value != "" then
        match ParseInt(cachedId.value)
        case None => Failure(InvalidCachedId(cachedId.value))
        case Some(id) => GetLocationById(s, id, Some(name))
      else
        match RowByName(s.db, name)
        case None => Failure(NotFound(name))
        case Some(k) =>
          var loc := s.db.rows[k];
          if loc.deleted then Failure(NotFound(name))
          else GetLocationById(State(s.db, Set(s.cache, key, IntToString(loc.id))), loc.id, Some(name))
  }
}

=== FILE: session_properties.dfy ===
/** Properties of the session bridge that relate login and logout. */
module SessionProperties {
  import opened Wrappers
  import opened Sessions

  /** After any login a document exists, so the following logout cannot fail
      for want of one; it succeeds exactly when every loaded entry is live. */
  lemma {:induction false} LoginThenLogoutFindsDocument<T, D>(s: Session<T, D>, userId: int, toDict: T -> D)
    ensures Logout(Login(s, userId), userId, toDict) != Failure(NotFoundForLogout(userId))
    ensures LogoutCorrected(Login(s, userId), userId, toDict).Success?
  {
    assert userId in Login(s, userId).store;
  }

  /** Round trip: with a document present and only live entries, logout then
      login loads back `map(to_dict, favorites)`, in order. */
  lemma {:induction false} LogoutThenLogin<T, D>(s: Session<T, D>, userId: int, toDict: T -> D)
    requires userId in s.store
    requires forall i :: 0 <= i < |s.favorites| ==> s.favorites[i].Live?
    ensures Logout(s, userId, toDict).Success?
    ensures var favs := Login(Logout(s, userId, toDict).value, userId).favorites;
      && |favs| == |s.favorites|
      && forall i :: 0 <= i < |favs| ==> favs[i] == Stored(toDict(s.favorites[i].item))
  {
    var data := ToDicts(s.favorites, toDict).value;
    var s' := Logout(s, userId, toDict).value;
    assert StoredFavorites(s'.store[userId]) == data;
  }

  /** As written, logout cannot store what login loaded: after a login that
      loaded at least one stored entry, logout raises instead of saving, and
      the favorites stay loaded. */
  lemma {:induction false} LoginThenLogoutRaises<T, D>(s: Session<T, D>, userId: int, toDict: T -> D)
    requires userId in s.store
    requires |StoredFavorites(s.store[userId])| > 0
    ensures Logout(Login(s, userId), userId, toDict) == Failure(NoToDict)
  {
    var s' := Login(s, userId);
    assert s'.favorites[0].Stored?;
  }

  /** Serialising loaded entries gives back the stored dictionaries. */
  lemma {:induction false} SerialiseAsStored<T, D>(ds: seq<D>, toDict: T -> D)
    ensures SerialiseAll(AsStored<T, D>(ds), toDict) == ds
  {
    var es := AsStored<T, D>(ds);
    var back := SerialiseAll(es, toDict);
    assert |back| == |ds|;
    forall i | 0 <= i < |ds| ensures back[i] == ds[i] {
      assert es[i] == Stored(ds[i]);
    }
  }

  /** With the corrected logout, login, logout, login loads the same
      favorites as the first login: the stored session survives a round trip. */
  lemma {:induction false} CorrectedSessionRoundTrip<T, D>(s: Session<T, D>, userId: int, toDict: T -> D)
    requires userId in s.store
    ensures var s1 := Login(s, userId);
      && LogoutCorrected(s1, userId, toDict).Success?
      && Login(LogoutCorrected(s1, userId, toDict).value, userId).favorites == s1.favorites
  {
    var s1 := Login(s, userId);
    var ds := StoredFavorites(s.store[userId]);
    SerialiseAsStored<T, D>(ds, toDict);
    var s2 := LogoutCorrected(s1, userId, toDict).value;
    assert StoredFavorites(s2.store[userId]) == ds;
  }
}

=== FILE: sessions.dfy ===
/** The session bridge between the favorites held in memory and the session
    documents kept per user: `login_user` loads a user's stored favorites (or
    opens an empty session), `logout_user` writes the favorites back and
    clears them.

    The document store is a map from user id to the one session document for
    that id. The favorites container is abstract: a sequence with clear,
    append and get-all. Its elements are either live entries (`Live`, objects
    with a `to_dict` method, given here as the parameter `toDict`) or the
    plain stored dictionaries that login appends (`Stored`). */
module Sessions {
  import opened Wrappers

  datatype Entry<T, D> = Live(item: T) | Stored(doc: D)

  /** A session document; `favorites` may be absent from it. */
  datatype SessionDoc<D> = SessionDoc(favorites: Option<seq<D>>)

  datatype Session<T, D> = Session(store: map<int, SessionDoc<D>>, favorites: seq<Entry<T, D>>)

  datatype SessionError =
    | NotFoundForLogout(userId: int)  // "User with ID {id} not found for logout."
    | NoToDict                        // AttributeError: a stored dict has no `to_dict`

  /** `session.get("favorites", [])`. */
  function StoredFavorites<D>(doc: SessionDoc<D>): (ds: seq<D>)
    ensures doc.favorites.Some? ==> ds == doc.favorites.value
    ensures doc.favorites.None? ==> ds == []
  {
    match doc.favorites
    case Some(ds) => ds
    case None => []
  }

  /** The entries login appends, one per stored dictionary, in stored order. */
  function AsStored<T, D>(ds: seq<D>): (es: seq<Entry<T, D>>)
    ensures |es| == |ds|
    ensures forall i :: 0 <= i < |ds| ==> es[i] == Stored(ds[i])
  {
    if |ds| == 0 then [] else [Stored(ds[0])] + AsStored(ds[1..])
  }

  /** `login_user`: with a document, clear the favorites and append each
      stored entry; without one, insert an empty document and leave the
      favorites alone. Never fails. */
  function Login<T, D>(s: Session<T, D>, userId: int): (s': Session<T, D>)
    ensures userId in s'.store
    ensures userId in s.store ==>
      && s'.store == s.store
      && s'.favorites == AsStored(StoredFavorites(s.store[userId]))
    ensures userId !in s.store ==>
      && s'.store == s.store[userId := SessionDoc(Some([]))]
      && s'.favorites == s.favorites
  {
    if userId in s.store then
      s.(favorites := AsStored(StoredFavorites(s.store[userId])))
    else
      s.(store := s.store[userId := SessionDoc(Some([]))])
  }

  /** `[favorite.to_dict() for favorite in favs]`: fails on the first stored
      dictionary, which has no `to_dict`. */
  function ToDicts<T, D>(favs: seq<Entry<T, D>>, toDict: T -> D): (r: Result<seq<D>, SessionError>)
    ensures r.Success? <==> forall i :: 0 <= i < |favs| ==> favs[i].Live?
    ensures r.Failure? ==> r.error == NoToDict
    ensures r.Success? ==>
      && |r.value| == |favs|
      && forall i :: 0 <= i < |favs| ==> r.value[i] == toDict(favs[i].item)
  {
    if |favs| == 0 then Success([])
    else
      match favs[0]
      case Stored(_) => Failure(NoToDict)
      case Live(t) =>
        match ToDicts(favs[1..], toDict)
        case Failure(e) => Failure(e)
        case Success(rest) => Success([toDict(t)] + rest)
  }

  /** `logout_user`: serialise the favorites, overwrite the `favorites` of an
      existing document (never inserting one), then clear the favorites. */
  function Logout<T, D>(s: Session<T, D>, userId: int, toDict: T -> D): (r: Result<Session<T, D>, SessionError>)
    ensures ToDicts(s.favorites, toDict).Failure? ==> r == Failure(NoToDict)
    ensures ToDicts(s.favorites, toDict).Success? && userId !in s.store ==>
      r == Failure(NotFoundForLogout(userId))
    ensures r.Success? <==> ToDicts(s.favorites, toDict).Success? && userId in s.store
    ensures r.Success? ==>
      && r.value.favorites == []
      && r.value.store.Keys == s.store.Keys
      && r.value.store[userId] == SessionDoc(Some(ToDicts(s.favorites, toDict).value))
      && forall u :: u in s.store && u != userId ==> r.value.store[u] == s.store[u]
  {
    match ToDicts(s.favorites, toDict)
    case Failure(e) => Failure(e)
    case Success(data) =>
      if userId !in s.store then Failure(NotFoundForLogout(userId))
      else Success(Session(s.store[userId := SessionDoc(Some(data))], []))
  }

  /** What `to_dict` would have to do on both kinds of entry for logout to
      accept what login loads: a stored dictionary is written back as is. */
  function Serialise<T, D>(e: Entry<T, D>, toDict: T -> D): (d: D)
    ensures e.Stored? ==> d == e.doc
  {
    match e
    case Live(t) => toDict(t)
    case Stored(d) => d
  }

  function SerialiseAll<T, D>(favs: seq<Entry<T, D>>, toDict: T -> D): (ds: seq<D>)
    ensures |ds| == |favs|
    ensures forall i :: 0 <= i < |favs| ==> ds[i] == Serialise(favs[i], toDict)
  {
    if |favs| == 0 then [] else [Serialise(favs[0], toDict)] + SerialiseAll(favs[1..], toDict)
  }

  /** Logout as evidently intended: every entry, live or loaded, is written
      back; only a missing document makes it fail. */
  function LogoutCorrected<T, D>(s: Session<T, D>, userId: int, toDict: T -> D): (r: Result<Session<T, D>, SessionError>)
    ensures r.Failure? <==> userId !in s.store
    ensures r.Failure? ==> r.error == NotFoundForLogout(userId)
    ensures r.Success? ==>
      && r.value.favorites == []
      && r.value.store.Keys == s.store.Keys
      && StoredFavorites(r.value.store[userId]) == SerialiseAll(s.favorites, toDict)
      && forall u :: u in s.store && u != userId ==> r.value.store[u] == s.store[u]
  {
    if userId !in s.store then Failure(NotFoundForLogout(userId))
    else Success(Session(s.store[userId := SessionDoc(Some(SerialiseAll(s.favorites, toDict)))], []))
  }
}

=== FILE: text.dfy ===
/** The handful of Python string conversions the model needs: `str(int)`,
    `int(str)` on the strings `str` produces, and ASCII `str.lower()`. */
module Text {
  import opened Wrappers

  predicate IsDigit(c: char) {
    '0' <= c <= '9'
  }

  function DigitChar(d: nat): (c: char)
    requires d < 10
    ensures IsDigit(c)
  {
    "0123456789"[d]
  }

  function DigitValue(c: char): (d: nat)
    requires IsDigit(c)
    ensures d < 10
  {
    c as int - '0' as int
  }

  predicate AllDigits(s: string) {
    forall i :: 0 <= i < |s| ==> IsDigit(s[i])
  }

  /** Decimal rendering of a natural number, most significant digit first. */
  function NatToString(n: nat): (s: string)
    ensures |s| > 0 && AllDigits(s)
  {
    if n < 10 then [DigitChar(n)] else NatToString(n / 10) + [DigitChar(n % 10)]
  }

  /** Python's `str(i)` for an `int`. */
  function IntToString(i: int): (s: string)
    ensures |s| > 0
    ensures IsDigit(s[0]) || s[0] == '-'
  {
    if i < 0 then "-" + NatToString(-i) else NatToString(i)
  }

  /** The value of a non-empty run of decimal digits; None for anything else. */
  function ParseDigits(s: string): (r: Option<nat>)
    ensures r.Some? <==> |s| > 0 && AllDigits(s)
  {
    if |s| == 0 || !IsDigit(s[|s| - 1]) then None
    else if |s| == 1 then Some(DigitValue(s[0]))
    else
      match ParseDigits(s[..|s| - 1])
      case None => None
      case Some(v) => Some(v * 10 + DigitValue(s[|s| - 1]))
  }

  /** Python's `int(s)` restricted to an optional sign followed by decimal
      digits; None where Python would raise `ValueError`. */
  function ParseInt(s: string): Option<int> {
    if |s| > 0 && (s[0] == '-' || s[0] == '+') then
      match ParseDigits(s[1..])
      case None => None
      case Some(v) => var n: int := v; Some(if s[0] == '-' then -n else n)
    else
      match ParseDigits(s)
      case None => None
      case Some(v) => Some(v as int)
  }

  lemma {:induction false} ParseNatToString(n: nat)
    ensures ParseDigits(NatToString(n)) == Some(n)
  {
    if n >= 10 {
      var s := NatToString(n);
      assert s[..|s| - 1] == NatToString(n / 10);
      ParseNatToString(n / 10);
    }
  }

  /** `int(str(i)) == i`: the name index stores `str(id)` and reads it back with `int`. */
  lemma {:induction false} ParseIntToString(i: int)
    ensures ParseInt(IntToString(i)) == Some(i)
  {
    var s := IntToString(i);
    if i < 0 {
      ParseNatToString(-i);
      assert s[1..] == NatToString(-i);
    } else {
      ParseNatToString(i);
      assert IsDigit(s[0]);
    }
  }

  lemma {:induction false} IntToStringInjective(a: int, b: int)
    ensures IntToString(a) == IntToString(b) ==> a == b
  {
    ParseIntToString(a);
    ParseIntToString(b);
  }

  /** ASCII `str.lower()` of one character. */
  function LowerChar(c: char): char {
    if 'A' <= c <= 'Z' then (c as int - 'A' as int + 'a' as int) as char else c
  }

  function ToLower(s: string): (r: string)
    ensures |r| == |s|
    ensures forall i :: 0 <= i < |s| ==> r[i] == LowerChar(s[i])
  {
    if |s| == 0 then "" else [LowerChar(s[0])] + ToLower(s[1..])
  }

  /** Two strings that start with different prefixes of equal length differ. */
  lemma {:induction false} PrefixesDiffer(p: string, q: string, x: string, y: string, k: nat)
    requires |p| == |q| && k < |p| && p[k] != q[k]
    ensures p + x != q + y
  {
    assert (p + x)[k] == p[k];
    assert (q + y)[k] == q[k];
  }
}

=== FILE: user_properties.dfy ===
/** Properties of the user store that relate several calls: a password just
    set is accepted, ids stay unique, and a favorite-name list changed only by
    add and remove never holds a name twice. */
module UserProperties {
  import opened Wrappers
  import opened Users

  /** After `create_user(u, p)`, `check_password(u, p)` holds, whatever salt
      was drawn, because the stored salt is the one the hash used. */
  lemma {:induction false} CreateThenCheck(us: Users, username: string, password: string, salt: string,
                                           hash: string -> string)
    requires username !in us.byName
    ensures CheckPassword(CreateUser(us, username, password, salt, hash).value, username, password, hash)
      == Success(true)
  {
    var us' := CreateUser(us, username, password, salt, hash).value;
    assert us'.byName[username].salt == salt;
  }

  /** `get_id_by_username` on a user just created gives the counter's value,
      an id no other user of a valid store holds; every other user keeps
      their id. */
  lemma {:induction false} CreateThenGetId(us: Users, username: string, password: string, salt: string,
                                           hash: string -> string, other: string)
    requires Valid(us)
    requires username !in us.byName
    requires other != username
    ensures var us' := CreateUser(us, username, password, salt, hash).value;
      && GetId(us', username) == Success(us.nextId)
      && GetId(us', other) == GetId(us, other)
      && GetId(us', other) != Success(us.nextId)
  {
    if other in us.byName {
      assert us.byName[other].id < us.nextId;
    }
  }

  /** After `update_password(u, q)`, `check_password(u, q)` holds, and every
      other user answers as before. */
  lemma {:induction false} UpdateThenCheck(us: Users, username: string, newPassword: string, salt: string,
                                           hash: string -> string, other: string, password: string)
    requires username in us.byName
    requires other != username
    ensures var us' := UpdatePassword(us, username, newPassword, salt, hash).value;
      && CheckPassword(us', username, newPassword, hash) == Success(true)
      && CheckPassword(us', other, password, hash) == CheckPassword(us, other, password, hash)
  {
    var us' := UpdatePassword(us, username, newPassword, salt, hash).value;
    assert us'.byName[username].salt == salt;
  }

  /** Every store operation keeps ids unique and below the counter. */
  lemma {:induction false} OperationsPreserveValid(us: Users, username: string, password: string, salt: string,
                                                   hash: string -> string, location: string)
    requires Valid(us)
    ensures CreateUser(us, username, password, salt, hash).Success? ==>
      Valid(CreateUser(us, username, password, salt, hash).value)
    ensures DeleteUser(us, username).Success? ==> Valid(DeleteUser(us, username).value)
    ensures UpdatePassword(us, username, password, salt, hash).Success? ==>
      Valid(UpdatePassword(us, username, password, salt, hash).value)
    ensures AddFavorite(us, username, location).Success? ==> Valid(AddFavorite(us, username, location).value)
    ensures RemoveFavorite(us, username, location).Success? ==> Valid(RemoveFavorite(us, username, location).value)
  {
    var c := CreateUser(us, username, password, salt, hash);
    if c.Success? {
      var us' := c.value;
      forall u | u in us'.byName ensures us'.byName[u].id < us'.nextId {
        if u != username {
          assert us'.byName[u] == us.byName[u];
        }
      }
    }
    var d := DeleteUser(us, username);
    if d.Success? {
      SameIdsPreserveValid(us, d.value);
    }
    var p := UpdatePassword(us, username, password, salt, hash);
    if p.Success? {
      SameIdsPreserveValid(us, p.value);
    }
    var a := AddFavorite(us, username, location);
    if a.Success? {
      SameIdsPreserveValid(us, a.value);
    }
    var r := RemoveFavorite(us, username, location);
    if r.Success? {
      SameIdsPreserveValid(us, r.value);
    }
  }

  /** A change that adds no user and keeps every remaining user's id and the
      counter keeps the store valid. */
  lemma {:induction false} SameIdsPreserveValid(us: Users, us': Users)
    requires Valid(us)
    requires us'.byName.Keys <= us.byName.Keys
    requires us'.nextId == us.nextId
    requires forall u :: u in us'.byName ==> us'.byName[u].id == us.byName[u].id
    ensures Valid(us')
  {
    forall u, v | u in us'.byName && v in us'.byName && u != v
      ensures us'.byName[u].id != us'.byName[v].id
    {
      assert u in us.byName && v in us.byName;
    }
  }

  predicate Distinct(xs: seq<string>) {
    forall i, j :: 0 <= i < j < |xs| ==> xs[i] != xs[j]
  }

  /** The first occurrence is the only position `remove` can drop. */
  lemma {:induction false} RemoveFirstIsFirst(xs: seq<string>, x: string, k: nat)
    requires k < |xs| && xs[k] == x && x !in xs[..k]
    ensures RemoveFirst(xs, x) == xs[..k] + xs[k + 1..]
  {
    var j := IndexOf(xs, x);
    assert forall i :: 0 <= i < k ==> xs[..k][i] == xs[i];
    assert forall i :: 0 <= i < j ==> xs[..j][i] == xs[i];
    assert j == k;
  }

  /** Dropping one element keeps a list free of repeats. */
  lemma {:induction false} RemoveFirstKeepsDistinct(xs: seq<string>, x: string)
    requires Distinct(xs)
    requires x in xs
    ensures Distinct(RemoveFirst(xs, x))
  {
    var k := IndexOf(xs, x);
    var r := xs[..k] + xs[k + 1..];
    forall i, j | 0 <= i < j < |r| ensures r[i] != r[j] {
      var i' := if i < k then i else i + 1;
      var j' := if j < k then j else j + 1;
      assert r[i] == xs[i'] && r[j] == xs[j'];
    }
  }

  /** A favorite list changed only by add and remove never holds a name twice. */
  lemma {:induction false} FavoritesStayDistinct(us: Users, username: string, location: string)
    requires username in us.byName
    requires Distinct(OrEmpty(us.byName[username].favorites))
    ensures AddFavorite(us, username, location).Success? ==>
      Distinct(OrEmpty(AddFavorite(us, username, location).value.byName[username].favorites))
    ensures RemoveFavorite(us, username, location).Success? ==>
      Distinct(OrEmpty(RemoveFavorite(us, username, location).value.byName[username].favorites))
  {
    var xs := OrEmpty(us.byName[username].favorites);
    if location !in xs {
      var xs' := xs + [location];
      forall i, j | 0 <= i < j < |xs'| ensures xs'[i] != xs'[j] {
        if j == |xs| {
          assert xs'[i] == xs[i];
        } else {
          assert xs'[i] == xs[i] && xs'[j] == xs[j];
        }
      }
    } else {
      RemoveFirstKeepsDistinct(xs, location);
    }
  }

  /** Adding a name that is not yet a favorite and removing it again gives
      back the list as it was (a null list comes back empty). */
  lemma {:induction false} AddThenRemoveFavorite(us: Users, username: string, location: string)
    requires username in us.byName
    requires location !in OrEmpty(us.byName[username].favorites)
    ensures var us' := AddFavorite(us, username, location).value;
      && RemoveFavorite(us', username, location).Success?
      && RemoveFavorite(us', username, location).value.byName[username].favorites
           == Some(OrEmpty(us.byName[username].favorites))
  {
    var xs := OrEmpty(us.byName[username].favorites);
    var xs' := xs + [location];
    assert xs'[|xs|] == location;
    assert xs'[..|xs|] == xs;
    RemoveFirstIsFirst(xs', location, |xs|);
    assert xs'[|xs| + 1..] == [];
    assert RemoveFirst(xs', location) == xs;
    var us' := AddFavorite(us, username, location).value;
    assert us'.byName[username].favorites == Some(xs');
    assert location in OrEmpty(us'.byName[username].favorites);
  }

  /** Adding a name already present changes nothing; adding twice is adding once. */
  lemma {:induction false} AddFavoriteIdempotent(us: Users, username: string, location: string)
    requires username in us.byName
    ensures var us' := AddFavorite(us, username, location).value;
      AddFavorite(us', username, location) == Success(us')
  {
    var us' := AddFavorite(us, username, location).value;
    var xs := OrEmpty(us.byName[username].favorites);
    assert location in OrEmpty(us'.byName[username].favorites) by {
      if location !in xs {
        assert (xs + [location])[|xs|] == location;
      }
    }
    assert us'.byName[username := us'.byName[username]] == us'.byName;
  }
}

=== FILE: users.dfy ===
/** The user credential store: one record per username holding an id, a salt,
    the hash of password + salt, and an optional list of favorite location
    names. The hash (SHA-256 in hex) is the parameter `hash`; the random salt
    a call would draw is the parameter `salt`. */
module Users {
  import opened Wrappers

  datatype User = User(id: int, salt: string, password: string, favorites: Option<seq<string>>)

  /** The users table keyed by its unique `username` column; `nextId` is the
      id the next insert receives. */
  datatype Users = Users(byName: map<string, User>, nextId: int)

  datatype UserError =
    | DuplicateUsername(username: string)               // "User with username '{u}' already exists"
    | UserNotFound(username: string)                    // "User {u} not found"
    | FavoriteNotFound(location: string, username: string)  // "Favorite location {l} not found for user {u}"

  /** Ids are below the counter and no two users share one. */
  ghost predicate Valid(us: Users) {
    && (forall u :: u in us.byName ==> us.byName[u].id < us.nextId)
    && (forall u, v :: u in us.byName && v in us.byName && u != v ==> us.byName[u].id != us.byName[v].id)
  }

  /** `create_user`: hash with a fresh salt and insert; a taken username
      violates the unique constraint. */
  function CreateUser(us: Users, username: string, password: string, salt: string,
                      hash: string -> string): (r: Result<Users, UserError>)
    ensures username in us.byName ==> r == Failure(DuplicateUsername(username))
    ensures username !in us.byName ==> r.Success?
    ensures r.Success? ==>
      && r.value.byName.Keys == us.byName.Keys + {username}
      && r.value.byName[username] == User(us.nextId, salt, hash(password + salt), None)
      && r.value.nextId == us.nextId + 1
      && forall u :: u in us.byName ==> r.value.byName[u] == us.byName[u]
  {
    if username in us.byName then Failure(DuplicateUsername(username))
    else Success(Users(us.byName[username := User(us.nextId, salt, hash(password + salt), None)], us.nextId + 1))
  }

  /** `check_password`: hash the candidate with the stored salt and compare. */
  function CheckPassword(us: Users, username: string, password: string,
                         hash: string -> string): (r: Result<bool, UserError>)
    ensures r.Failure? <==> username !in us.byName
    ensures r.Failure? ==> r.error == UserNotFound(username)
    ensures r.Success? ==>
      (r.value <==> hash(password + us.byName[username].salt) == us.byName[username].password)
  {
    if username !in us.byName then Failure(UserNotFound(username))
    else
      var user := us.byName[username];
      Success(hash(password + user.salt) == user.password)
  }

  /** `delete_user`. */
  function DeleteUser(us: Users, username: string): (r: Result<Users, UserError>)
    ensures r.Failure? <==> username !in us.byName
    ensures r.Failure? ==> r.error == UserNotFound(username)
    ensures r.Success? ==>
      && r.value.byName.Keys == us.byName.Keys - {username}
      && r.value.nextId == us.nextId
      && forall u :: u in r.value.byName ==> r.value.byName[u] == us.byName[u]
  {
    if username !in us.byName then Failure(UserNotFound(username))
    else Success(us.(byName := us.byName - {username}))
  }

  /** `get_id_by_username`. */
  function GetId(us: Users, username: string): (r: Result<int, UserError>)
    ensures r.Failure? <==> username !in us.byName
    ensures r.Failure? ==> r.error == UserNotFound(username)
    ensures r.Success? ==> r.value == us.byName[username].id
  {
    if username !in us.byName then Failure(UserNotFound(username))
    else Success(us.byName[username].id)
  }

  /** `update_password`: a fresh salt and the hash of the new password. */
  function UpdatePassword(us: Users, username: string, newPassword: string, salt: string,
                          hash: string -> string): (r: Result<Users, UserError>)
    ensures r.Failure? <==> username !in us.byName
    ensures r.Failure? ==> r.error == UserNotFound(username)
    ensures r.Success? ==>
      && r.value.byName.Keys == us.byName.Keys
      && r.value.nextId == us.nextId
      && r.value.byName[username].salt == salt
      && r.value.byName[username].password == hash(newPassword + salt)
      && r.value.byName[username].id == us.byName[username].id
      && r.value.byName[username].favorites == us.byName[username].favorites
      && forall u :: u in us.byName && u != username ==> r.value.byName[u] == us.byName[u]
  {
    if username !in us.byName then Failure(UserNotFound(username))
    else
      var user := us.byName[username];
      Success(us.(byName := us.byName[username := user.(salt := salt, password := hash(newPassword + salt))]))
  }

  /** A null list reads as empty. */
  function OrEmpty(favorites: Option<seq<string>>): (xs: seq<string>)
    ensures favorites.Some? ==> xs == favorites.value
    ensures favorites.None? ==> xs == []
  {
    match favorites
    case Some(xs) => xs
    case None => []
  }

  /** `add_favorite_location`: a null list becomes empty; a name already there
      changes nothing; otherwise it goes at the end. */
  function AddFavorite(us: Users, username: string, location: string): (r: Result<Users, UserError>)
    ensures r.Failure? <==> username !in us.byName
    ensures r.Failure? ==> r.error == UserNotFound(username)
    ensures r.Success? ==>
      var before := OrEmpty(us.byName[username].favorites);
      && r.value.byName.Keys == us.byName.Keys
      && r.value.nextId == us.nextId
      && r.value.byName[username].favorites ==
           Some(if location in before then before else before + [location])
      && r.value.byName[username] == us.byName[username].(favorites := r.value.byName[username].favorites)
      && forall u :: u in us.byName && u != username ==> r.value.byName[u] == us.byName[u]
  {
    if username !in us.byName then Failure(UserNotFound(username))
    else
      var user := us.byName[username];
      var xs := OrEmpty(user.favorites);
      var xs' := if location in xs then xs else xs + [location];
      Success(us.(byName := us.byName[username := user.(favorites := Some(xs'))]))
  }

  /** Position of the first occurrence of `x`. */
  function IndexOf(xs: seq<string>, x: string): (k: nat)
    requires x in xs
    ensures k < |xs| && xs[k] == x && x !in xs[..k]
  {
    if xs[0] == x then 0
    else
      var k := IndexOf(xs[1..], x);
      assert xs[..k + 1] == [xs[0]] + xs[1..][..k];
      k + 1
  }

  /** `list.remove`: drop the first occurrence. */
  function RemoveFirst(xs: seq<string>, x: string): (r: seq<string>)
    requires x in xs
    ensures |r| == |xs| - 1
    ensures multiset(r) == multiset(xs) - multiset{x}
  {
    var k := IndexOf(xs, x);
    assert xs == xs[..k] + [x] + xs[k + 1..];
    xs[..k] + xs[k + 1..]
  }

  /** `remove_favorite_location`: the name must be in a non-null, non-empty
      list; its first occurrence is removed. */
  function RemoveFavorite(us: Users, username: string, location: string): (r: Result<Users, UserError>)
    ensures username !in us.byName ==> r == Failure(UserNotFound(username))
    ensures username in us.byName && location !in OrEmpty(us.byName[username].favorites) ==>
      r == Failure(FavoriteNotFound(location, username))
    ensures r.Success? <==> username in us.byName && location in OrEmpty(us.byName[username].favorites)
    ensures r.Success? ==>
      var before := us.byName[username].favorites.value;
      && r.value.byName.Keys == us.byName.Keys
      && r.value.nextId == us.nextId
      && r.value.byName[username].favorites.Some?
      && multiset(r.value.byName[username].favorites.value) == multiset(before) - multiset{location}
      && r.value.byName[username] == us.byName[username].(favorites := r.value.byName[username].favorites)
      && forall u :: u in us.byName && u != username ==> r.value.byName[u] == us.byName[u]
  {
    if username !in us.byName then Failure(UserNotFound(username))
    else
      var user := us.byName[username];
      match user.favorites
      case None => Failure(FavoriteNotFound(location, username))
      case Some(xs) =>
        if |xs| == 0 || location !in xs then Failure(FavoriteNotFound(location, username))
        else Success(us.(byName := us.byName[username := user.(favorites := Some(RemoveFirst(xs, location)))]))
  }
}

=== FILE: wrappers.dfy ===
/** Option and Result, the two failure-carrying datatypes the model uses for
    lookups that may miss and for operations that may raise. */
module Wrappers {

  datatype Option<+T> = None | Some(value: T)

  /** `Success` carries the value an operation returns; `Failure` the error it raises. */
  datatype Result<+R, +E> = Success(value: R) | Failure(error: E)
}
